=== FILE: README.md ===
# Host-side batch preparation of the CUDA strings aggregator test driver

This project models the host side of `cuda_strings_aggregator_with_file.cpp`, the
command-line driver that aggregates string values by string key on the GPU. The
driver works in these steps:

1. It rejects an unknown aggregate-function name. Only `COUNT` and `uniqHLL12`
   are known.
2. It walks the NUL-terminated keys block and, in lockstep, the values block.
   From them it builds the `offsets`/`lens` tables and the `offsets_vals`/
   `lens_vals` tables, each offset table with a sentinel entry after the last
   record.
3. It resolves the sampling plan. These are the ranges read from the strings
   file, or one range over all rows when the file has none. It also totals the
   plan's rows.
4. It cuts each range into batches of `block_str_num` rows. In the
   `offsets64`/`offsets64_vals` tables it re-bases each batch's offsets to the
   batch's first row.
5. It hands every batch to the aggregator with `queueData`.

The aggregator is modelled as an append-only log of `queueData` calls. The factory
`createAggregateFunction` and the result comparison `compare_results` are modelled
too.

The modules follow the program's stages:

- `Results`: error values for the `std::runtime_error`s the program throws.
- `Records`: the indexing scan.
- `Sampling`: the plan and its row total.
- `Batching`: strides, batches and re-based tables.
- `Submissions`: the `queueData` log.
- `SharedTables`: the row-indexed `offsets64` tables as the source writes them.
- `Aggregates`: the function factory, the name guard and `compare_results`.
- `Driver`: the corrected `main`, from the name guard to the last submission, and where it agrees with `main` as written.

Throughout, one loop of the source appears twice:

- As the source writes it, `...AsWritten`. There the stride can be zero and the
  offsets come from one shared table.
- As its evident intent. There the stride is at least one and each batch
  carries its own re-based tables.

The rest of the model is built on the second form. The "## Findings" section
shows where the two forms differ.

## Model

All source paths are under `clickhouse-gpu/dbms/src/Interpreters/Cuda/tests/`;
the cells below give the full path.

| member | source | states |
|---|---|---|
| Aggregates.CreateAggregateFunction | clickhouse-gpu/dbms/src/Interpreters/Cuda/tests/cuda_strings_aggregator_with_file.cpp:32-40 | "COUNT" yields Count and "uniqHLL12" yields UniqHLL12. Every other name fails with the runtime_error "createAggregateFunction: unknown function name " followed by the name. |
| Aggregates.CreateNameOf | clickhouse-gpu/dbms/src/Interpreters/Cuda/tests/cuda_strings_aggregator_with_file.cpp:32-40 | The factory is the inverse of the name map: each function is created from its own name and from no other name. |
| Aggregates.CheckFunctionName | clickhouse-gpu/dbms/src/Interpreters/Cuda/tests/cuda_strings_aggregator_with_file.cpp:96-97 | The guard passes exactly the two known names, unchanged. Any other name fails with "unknown function name: " followed by the name. |
| Aggregates.CheckedNameIsCreated | clickhouse-gpu/dbms/src/Interpreters/Cuda/tests/cuda_strings_aggregator_with_file.cpp:96-97 | A name passes the guard if and only if the factory later accepts it, so the throw at line 39 cannot be reached after the guard. The function created carries the checked name. |
| Aggregates.CompareResults | clickhouse-gpu/dbms/src/Interpreters/Cuda/tests/cuda_strings_aggregator_with_file.cpp:42-58 | The result is true if and only if both maps have the same key set and every key's data gives the same getResult in both maps. This covers the size test, the missing key and the first mismatching value. |
| Aggregates.SameResultsReported | clickhouse-gpu/dbms/src/Interpreters/Cuda/tests/cuda_strings_aggregator_with_file.cpp:46-56 | Two maps compare equal if and only if the key-to-result maps they report are equal. |
| Aggregates.SameResultsReflexive | clickhouse-gpu/dbms/src/Interpreters/Cuda/tests/cuda_strings_aggregator_with_file.cpp:42-58 | Every result map compares equal to itself. |
| Aggregates.SameResultsSymmetric | clickhouse-gpu/dbms/src/Interpreters/Cuda/tests/cuda_strings_aggregator_with_file.cpp:42-58 | Swapping the two maps does not change the verdict. |
| Records.NextNul | clickhouse-gpu/dbms/src/Interpreters/Cuda/tests/cuda_strings_aggregator_with_file.cpp:131-132 | strchr returns the first NUL at or after the cursor, and that NUL lies inside the block. |
| Records.AdvanceBoth | clickhouse-gpu/dbms/src/Interpreters/Cuda/tests/cuda_strings_aggregator_with_file.cpp:131-132 | When enough value records remain, both strchr calls find a terminator. Each cursor passes exactly one record, and enough value records remain for the key records that are left. |
| Records.ScanStep | clickhouse-gpu/dbms/src/Interpreters/Cuda/tests/cuda_strings_aggregator_with_file.cpp:120-132 | Pushing the record's start, and the previous record's length when there is one, keeps the tables a record table of the block passed so far. |
| Records.ScanNext | clickhouse-gpu/dbms/src/Interpreters/Cuda/tests/cuda_strings_aggregator_with_file.cpp:120-132 | One pass of the loop body moves each cursor just past the next NUL its strchr finds. It appends exactly the record's start to both offset tables and increments str_num by exactly one. Both blocks' tables stay consistent, and enough value records remain for the key records that are left. |
| Records.ScanRecords | clickhouse-gpu/dbms/src/Interpreters/Cuda/tests/cuda_strings_aggregator_with_file.cpp:118-133 | The loop ends with the keys cursor at the end of the block, and str_num equals the number of key records. Both tables list the start of every record passed. |
| Records.ScanClose | clickhouse-gpu/dbms/src/Interpreters/Cuda/tests/cuda_strings_aggregator_with_file.cpp:134-142 | The closing push of the last length and the sentinel yields a record table with lens[i] = offsets[i+1] - offsets[i]. The table is strictly increasing and every length is at least 1. |
| Records.IndexRecords | clickhouse-gpu/dbms/src/Interpreters/Cuda/tests/cuda_strings_aggregator_with_file.cpp:115-142 | Both offset tables delimit the records of their block. They hold one entry per key record plus a sentinel, and the keys sentinel equals the keys block size. The length tables hold the differences of neighbouring offsets, each at least 1. |
| Records.DelimitsIncreasing | clickhouse-gpu/dbms/src/Interpreters/Cuda/tests/cuda_strings_aggregator_with_file.cpp:127-141 | An offset table that delimits records is strictly increasing and never points past its block. |
| Records.DelimitsUnique | clickhouse-gpu/dbms/src/Interpreters/Cuda/tests/cuda_strings_aggregator_with_file.cpp:118-142 | A block has at most one record table of each length, so the index is determined by the block. |
| Records.RecordCountBound | clickhouse-gpu/dbms/src/Interpreters/Cuda/tests/cuda_strings_aggregator_with_file.cpp:118-133 | A block holds at most as many records as it has bytes, so str_num is at most the block size. |
| Sampling.ResolvePlan | clickhouse-gpu/dbms/src/Interpreters/Cuda/tests/cuda_strings_aggregator_with_file.cpp:146-154 | Explicit ranges are used as given. With none, the plan visits rows 0..n-1 once each, in order. Ranges that are in bounds stay in bounds. |
| Sampling.DefaultPlanAgrees | clickhouse-gpu/dbms/src/Interpreters/Cuda/tests/cuda_strings_aggregator_with_file.cpp:146-154 | With at least one row, the source's default range [0, lens.size()-1] is exactly the corrected plan. |
| Sampling.ResolvePlanAsWritten | clickhouse-gpu/dbms/src/Interpreters/Cuda/tests/cuda_strings_aggregator_with_file.cpp:146-154 | As written, the plan always has at least one range. Explicit ranges are used as given. With no ranges and 1 to 2^64 rows, the default range visits rows 0..n-1 once each, in order. |
| Sampling.EmptyInputDefaultRange | clickhouse-gpu/dbms/src/Interpreters/Cuda/tests/cuda_strings_aggregator_with_file.cpp:153 | With no rows, lens.size()-1 wraps, so the default range ends at 2^64-1, past every row. The corrected plan is empty. |
| Sampling.TotalRowsExact | clickhouse-gpu/dbms/src/Interpreters/Cuda/tests/cuda_strings_aggregator_with_file.cpp:155-157 | The size_t total equals the number of selected rows when no range is reversed and the sum fits in 64 bits. |
| Sampling.TotalRowsAsWritten | clickhouse-gpu/dbms/src/Interpreters/Cuda/tests/cuda_strings_aggregator_with_file.cpp:155-157 | total_str_num is a size_t: whatever the ranges, the total stays below 2^64. |
| Sampling.PlanRowsLength | clickhouse-gpu/dbms/src/Interpreters/Cuda/tests/cuda_strings_aggregator_with_file.cpp:155-157 | The rows the plan visits are as many as the per-range counts add up to. |
| Batching.Stride | clickhouse-gpu/dbms/src/Interpreters/Cuda/tests/cuda_strings_aggregator_with_file.cpp:170 | The corrected block_str_num is at least 1. For a range with start <= end (and end+1 not wrapping), it equals the source's value whenever that is positive. In every case it is 1 or within both buffer_max_str_num/8 and the range's row count divided by 8. |
| Batching.StrideAsWrittenPositive | clickhouse-gpu/dbms/src/Interpreters/Cuda/tests/cuda_strings_aggregator_with_file.cpp:235 | For a range with start <= end (and end+1 not wrapping), the source's stride is positive if and only if both buffer_max_str_num and the range's row count are at least 8. |
| Batching.StrideAsWritten | clickhouse-gpu/dbms/src/Interpreters/Cuda/tests/cuda_strings_aggregator_with_file.cpp:170 | The source's block_str_num never exceeds buffer_max_str_num/8. For a range with start <= end whose end+1 does not wrap, it also never exceeds the range's row count divided by 8. |
| Batching.StrideLoop | clickhouse-gpu/dbms/src/Interpreters/Cuda/tests/cuda_strings_aggregator_with_file.cpp:171-173 | Run for at most fuel iterations, the source's loop finishes at once on an empty range. Whenever it finishes with a positive stride, it has visited exactly Batches. |
| Batching.AsWrittenLoopFinishes | clickhouse-gpu/dbms/src/Interpreters/Cuda/tests/cuda_strings_aggregator_with_file.cpp:170-173 | Wherever the source's stride is positive and end+1 does not wrap, the source's loop finishes within the range's row count and visits exactly the batches of the corrected stride. |
| Batching.Batches | clickhouse-gpu/dbms/src/Interpreters/Cuda/tests/cuda_strings_aggregator_with_file.cpp:171-173 | The loop yields no batch exactly when i > end. Every batch [i, next_i) is non-empty and lies inside [i, end]. |
| Batching.BatchesShape | clickhouse-gpu/dbms/src/Interpreters/Cuda/tests/cuda_strings_aggregator_with_file.cpp:236-238 | The batches of a range start at start and end at end+1. Each starts where the previous one ends and holds at most block_str_num rows. |
| Batching.BatchesFlatten | clickhouse-gpu/dbms/src/Interpreters/Cuda/tests/cuda_strings_aggregator_with_file.cpp:171-173 | The batches list the rows start..end in order, each exactly once: they partition the range. |
| Batching.BatchesDisjoint | clickhouse-gpu/dbms/src/Interpreters/Cuda/tests/cuda_strings_aggregator_with_file.cpp:171-173 | An earlier batch ends at or before the start of any later batch, so no two batches share a row. |
| Batching.BatchOfRow | clickhouse-gpu/dbms/src/Interpreters/Cuda/tests/cuda_strings_aggregator_with_file.cpp:236-238 | Every row of the range lies in some batch, and the lemma returns that batch's position. |
| Batching.ZeroStrideStalls | clickhouse-gpu/dbms/src/Interpreters/Cuda/tests/cuda_strings_aggregator_with_file.cpp:171 | With stride 0 the loop never leaves a non-empty range, however many iterations it is given. |
| Batching.StrideLoopFinishes | clickhouse-gpu/dbms/src/Interpreters/Cuda/tests/cuda_strings_aggregator_with_file.cpp:236-238 | With a positive stride the loop finishes within end+1-i iterations and visits exactly Batches. |
| Batching.ShortRangeStalls | clickhouse-gpu/dbms/src/Interpreters/Cuda/tests/cuda_strings_aggregator_with_file.cpp:170-171 | A range with start <= end (and end+1 not wrapping) that has fewer than 8 rows, or any such range with a row budget below 8, gets the source's stride 0, and the loop never finishes. |
| Batching.RangeLoopFinishes | clickhouse-gpu/dbms/src/Interpreters/Cuda/tests/cuda_strings_aggregator_with_file.cpp:170-173 | With the corrected stride the loop finishes on every range, within its row count, and yields that range's batches. |
| Batching.EmptyInputStalls | clickhouse-gpu/dbms/src/Interpreters/Cuda/tests/cuda_strings_aggregator_with_file.cpp:146-173 | With empty input, the source's default range gets stride 0 and the re-basing loop never finishes. |
| Batching.Rebase | clickhouse-gpu/dbms/src/Interpreters/Cuda/tests/cuda_strings_aggregator_with_file.cpp:175-179 | A batch's re-based table holds exactly one entry per row of the batch. Its values are stated by Batching.RebaseAt. |
| Batching.RebaseAt | clickhouse-gpu/dbms/src/Interpreters/Cuda/tests/cuda_strings_aggregator_with_file.cpp:175-179 | Adding back the offset of the batch's first row turns each re-based entry into that row's offset in the block. |
| Batching.RebaseShape | clickhouse-gpu/dbms/src/Interpreters/Cuda/tests/cuda_strings_aggregator_with_file.cpp:175-179 | A re-based table starts at 0, keeps the block's order, and stays non-negative and below the batch's byte length. |
| Batching.RebasedDelimitsSpan | clickhouse-gpu/dbms/src/Interpreters/Cuda/tests/cuda_strings_aggregator_with_file.cpp:239-241 | The re-based table, closed with the batch's byte length, is the record table of the byte span passed to queueData. |
| Submissions.RebaseBatch | clickhouse-gpu/dbms/src/Interpreters/Cuda/tests/cuda_strings_aggregator_with_file.cpp:175-179 | The ii loop writes one entry per row of the batch. Adding back the first row's offset gives each row's offset in the block. |
| Submissions.SubmitBatch | clickhouse-gpu/dbms/src/Interpreters/Cuda/tests/cuda_strings_aggregator_with_file.cpp:239-242 | A call starts at the batch's first row and covers its rows up to next_i. Both re-based tables hold one entry per submitted row. |
| Submissions.BatchCall | clickhouse-gpu/dbms/src/Interpreters/Cuda/tests/cuda_strings_aggregator_with_file.cpp:239-242 | One queueData call: row count next_i-i, the key and value byte spans, and the two re-based tables. |
| Submissions.TraceFromUnfold | clickhouse-gpu/dbms/src/Interpreters/Cuda/tests/cuda_strings_aggregator_with_file.cpp:236-243 | The calls made from row i are the call for the batch at i, followed by the calls made from i + block_str_num. |
| Submissions.SubmitNext | clickhouse-gpu/dbms/src/Interpreters/Cuda/tests/cuda_strings_aggregator_with_file.cpp:238-242 | Queueing the batch at row i moves exactly that call from the calls still due to the log. |
| Submissions.SubmitRange | clickhouse-gpu/dbms/src/Interpreters/Cuda/tests/cuda_strings_aggregator_with_file.cpp:233-243 | After one range, the log grows by exactly that range's calls, in batch order. |
| Submissions.SubmitPlan | clickhouse-gpu/dbms/src/Interpreters/Cuda/tests/cuda_strings_aggregator_with_file.cpp:231-244 | The log is the calls of every range of the plan, range after range. |
| Submissions.PlanTrace | clickhouse-gpu/dbms/src/Interpreters/Cuda/tests/cuda_strings_aggregator_with_file.cpp:231-244 | Every call of a plan lies inside the index: start_row + row count never passes lens.size(), so offsets[next_i] is always read within the sentinel table. |
| Submissions.TraceRows | clickhouse-gpu/dbms/src/Interpreters/Cuda/tests/cuda_strings_aggregator_with_file.cpp:239 | The rows the calls submit, start_row after start_row, are the rows of their batches. |
| Submissions.RangeTraceRows | clickhouse-gpu/dbms/src/Interpreters/Cuda/tests/cuda_strings_aggregator_with_file.cpp:233-243 | The calls for a range submit the rows start..end in order, each exactly once. |
| Submissions.PlanTraceRows | clickhouse-gpu/dbms/src/Interpreters/Cuda/tests/cuda_strings_aggregator_with_file.cpp:231-244 | The calls for the plan submit exactly the plan's rows, range by range. |
| Submissions.BatchSizeIrrelevant | clickhouse-gpu/dbms/src/Interpreters/Cuda/tests/cuda_strings_aggregator_with_file.cpp:235 | buffer_max_str_num changes only how a range's rows are grouped, never which rows are submitted or their order. |
| Submissions.SubmitBatchSpan | clickhouse-gpu/dbms/src/Interpreters/Cuda/tests/cuda_strings_aggregator_with_file.cpp:239-241 | A call's key and value spans run from the offset of row i to the offset of row next_i. |
| Submissions.TraceTiles | clickhouse-gpu/dbms/src/Interpreters/Cuda/tests/cuda_strings_aggregator_with_file.cpp:238-241 | For batches that meet, each call's byte span starts where the previous call's span ends. |
| Submissions.RangeTraceSpans | clickhouse-gpu/dbms/src/Interpreters/Cuda/tests/cuda_strings_aggregator_with_file.cpp:236-242 | The calls for a range tile its byte span in both blocks. The first call starts at the range's first record, each call starts where the previous one ends, and the last call ends after the range's last record. |
| Submissions.BatchDescribes | clickhouse-gpu/dbms/src/Interpreters/Cuda/tests/cuda_strings_aggregator_with_file.cpp:239-242 | A call's spans lie inside the blocks. Its re-based tables, closed with the span lengths, are the record tables of those spans, one entry per row. |
| Submissions.TraceDescribes | clickhouse-gpu/dbms/src/Interpreters/Cuda/tests/cuda_strings_aggregator_with_file.cpp:236-243 | Every call for any batches inside the index describes its spans correctly. |
| Submissions.PlanTraceDescribes | clickhouse-gpu/dbms/src/Interpreters/Cuda/tests/cuda_strings_aggregator_with_file.cpp:231-244 | Every call of the whole plan describes its spans correctly. |
| SharedTables.RebaseRangeFrame | clickhouse-gpu/dbms/src/Interpreters/Cuda/tests/cuda_strings_aggregator_with_file.cpp:171-180 | Re-basing one range leaves every row outside the range untouched. |
| SharedTables.RebaseRangeRebased | clickhouse-gpu/dbms/src/Interpreters/Cuda/tests/cuda_strings_aggregator_with_file.cpp:171-180 | Right after its loop, every batch of the range finds its own re-based offsets in the table. |
| SharedTables.RangeRebasedFrame | clickhouse-gpu/dbms/src/Interpreters/Cuda/tests/cuda_strings_aggregator_with_file.cpp:240-241 | Whether the slices &offsets64[i] serve a range's batches depends only on the table's entries for that range's rows. |
| SharedTables.WriteBatch | clickhouse-gpu/dbms/src/Interpreters/Cuda/tests/cuda_strings_aggregator_with_file.cpp:175-179 | After one batch's ii loop, the batch's rows of the shared table hold the batch's re-based table, and every other row keeps its entry. |
| SharedTables.RebaseRangeAsWritten | clickhouse-gpu/dbms/src/Interpreters/Cuda/tests/cuda_strings_aggregator_with_file.cpp:171-180 | Re-basing a range in place keeps the table's length. What it writes is stated by RebaseRangeFrame and RebaseRangeRebased. |
| SharedTables.SharedTable | clickhouse-gpu/dbms/src/Interpreters/Cuda/tests/cuda_strings_aggregator_with_file.cpp:164-181 | The loop over all ranges keeps the table's length. What it leaves is stated by SharedTableFrame and SharedTableRebased. |
| SharedTables.Offsets64 | clickhouse-gpu/dbms/src/Interpreters/Cuda/tests/cuda_strings_aggregator_with_file.cpp:161-181 | The finished offsets64 has one entry per offset, sentinel included. |
| SharedTables.SharedTableFrame | clickhouse-gpu/dbms/src/Interpreters/Cuda/tests/cuda_strings_aggregator_with_file.cpp:164-181 | Rows that no range selects keep their entry. |
| SharedTables.SharedTableRebased | clickhouse-gpu/dbms/src/Interpreters/Cuda/tests/cuda_strings_aggregator_with_file.cpp:164-181 | When no two ranges share a row, the finished table serves every batch of every range. |
| SharedTables.BatchShared | clickhouse-gpu/dbms/src/Interpreters/Cuda/tests/cuda_strings_aggregator_with_file.cpp:239-242 | A call that hands over a correctly re-based slice of the shared tables equals the call with per-batch tables. |
| SharedTables.TraceFromShared | clickhouse-gpu/dbms/src/Interpreters/Cuda/tests/cuda_strings_aggregator_with_file.cpp:236-243 | A range whose batches the shared tables serve makes the same calls as with per-batch tables. |
| SharedTables.PlanTraceShared | clickhouse-gpu/dbms/src/Interpreters/Cuda/tests/cuda_strings_aggregator_with_file.cpp:231-244 | A plan whose batches the shared tables all serve makes the same calls as with per-batch tables. |
| SharedTables.DisjointPlanAgrees | clickhouse-gpu/dbms/src/Interpreters/Cuda/tests/cuda_strings_aggregator_with_file.cpp:161-244 | With pairwise disjoint ranges, the source's two-pass scheme (re-base everything, then submit slices) makes exactly the calls of the per-batch scheme. |
| SharedTables.PlanTraceAsWritten | clickhouse-gpu/dbms/src/Interpreters/Cuda/tests/cuda_strings_aggregator_with_file.cpp:231-244 | As written, the calls still submit exactly the plan's rows, range by range. Only the offset tables handed over can be wrong. |
| SharedTables.SecondCall | clickhouse-gpu/dbms/src/Interpreters/Cuda/tests/cuda_strings_aggregator_with_file.cpp:231-244 | In a plan whose first range starts at row 0, has at least two rows and has stride 1, the second call is the one-row batch at row 1. |
| SharedTables.OverlapStrides | clickhouse-gpu/dbms/src/Interpreters/Cuda/tests/cuda_strings_aggregator_with_file.cpp:170 | For [0,7] and [0,15] with a 16-row budget, the strides as written are 1 and 2, and the corrected strides are the same. |
| SharedTables.OverlapWritten | clickhouse-gpu/dbms/src/Interpreters/Cuda/tests/cuda_strings_aggregator_with_file.cpp:164-181 | As written, the second call of that plan covers row 1 and hands over offsets[1]-offsets[0], the second range's re-basing of row 1. |
| SharedTables.OverlapPerBatch | clickhouse-gpu/dbms/src/Interpreters/Cuda/tests/cuda_strings_aggregator_with_file.cpp:239-241 | With per-batch tables, the second call of that plan covers row 1 and hands over [0]. |
| SharedTables.OverlapClobbersRebase | clickhouse-gpu/dbms/src/Interpreters/Cuda/tests/cuda_strings_aggregator_with_file.cpp:164-181 | For ranges [0,7] and [0,15] with a 16-row budget, the source's second call (row 1) hands over offsets[1]-offsets[0]. The correct re-based table for that call is [0], and the two differ. |
| Driver.Run | clickhouse-gpu/dbms/src/Interpreters/Cuda/tests/cuda_strings_aggregator_with_file.cpp:96-244 | The corrected main fails if and only if the name is unknown, with the guard's message, whatever the blocks and ranges are. Otherwise it yields the factory's function, a valid index of both blocks (record tables whose keys sentinel is the keys block size and whose length tables hold the differences of neighbouring offsets), the resolved plan and its total. Its log is the plan's calls, which submit exactly the plan's rows, and every call describes its spans correctly. When every range that selects rows gets a positive source stride and no two ranges share a row, the plan is the source's plan and the log is the one main as written produces. |
| Driver.MainAsWrittenAgrees | clickhouse-gpu/dbms/src/Interpreters/Cuda/tests/cuda_strings_aggregator_with_file.cpp:146-244 | Under the same conditions the source's default plan is the resolved plan. Every stride loop as written finishes with the corrected batches, and the slices of the shared offsets64 tables are the per-batch re-based tables. |

## Left out

- Reading the strings file (the `dealer` loader), argument parsing and the usage text are not modelled. The key and value blocks, the sampling ranges and `buffer_max_str_num` are parameters of `Driver.Run`.
- The GPU aggregator is not modelled: construction, `startProcessing`, `waitProcessed`, `getResult`, CUDA streams and the hash tables. It appears only as the log of `queueData` arguments.
- The `COUNT` and `uniqHLL12` implementations are outside the model. `compare_results` takes `getResult` as a function parameter.
- The `printf` in `compare_results`, all console output, the timing and the results file are not modelled. They do not affect what is computed.
- The reference aggregation at lines 187-221 is commented out in the source, so it is not modelled.
- `memcpy_threads_num` only sets how many threads copy bytes, so it is not modelled.
- `buffer_max_size` is the engine's byte capacity for one batch (line 225). The submission loop at lines 236-243 never checks a batch's bytes against it, so the driver does not enforce it, and it is not modelled.
- Driver.Run: it models the corrected main, with three corrections. The stride is at least 1, so ranges of fewer than 8 rows and budgets below 8 make progress. Empty input gets an empty plan. Each batch carries its own re-based tables, so overlapping ranges are not clobbered. Where none of the three cases arises, its last ensures and Driver.MainAsWrittenAgrees tie it to main as written.
- Driver.Run: for a known function name it requires every sampling range to lie inside the indexed rows. The source never checks the ranges read from the file (lines 112, 168-169 and 233-234). An end equal to lens.size() still stays inside `offsets` and `offsets64` at lines 177-178, which have one entry more, but `offsets[next_i]` at lines 240-241 then reads one past the end. A larger end reads out of bounds at both places. Both are undefined behaviour. For an unknown name the blocks and ranges are unconstrained, because line 97 throws before the file is read.
- Records.IndexRecords: the `UInt32` offsets are not modelled wrapping. The method requires both blocks to be shorter than 2^32 bytes, which is where the source's offsets stop being exact.
- Records.IndexRecords: it, and Driver.Run for a known function name, require the keys block to end with NUL and the values block to hold at least as many records. Otherwise `strchr` reads past the buffer, which is undefined behaviour and cannot be modelled. Extra value records are ignored, as in the source.
- The key and value blocks are `seq<char>`, and each `char` stands for one byte of the source's `char` buffers. Every length and offset in the model counts elements of these sequences, which are the source's byte counts and byte offsets.
- `offsets64` entries are unbounded integers. They cannot wrap, because the source's differences of `UInt32` offsets fit in 64 bits.
- `i += block_str_num` and `end+1` are modelled unbounded, not wrapping in `size_t`. On in-bounds ranges neither wraps, since every end is below lens.size() < 2^32. On the empty-input default range `end+1` wraps to 0 at lines 173 and 238, but the stride there is 0, so the loop spins either way; that case is covered under "## Findings".
- Sampling.TotalRowsExact: it is stated only for ranges that are not reversed and whose total fits in 64 bits. `TotalRowsAsWritten` models the wrap-around in every case.
- The `SharedTables` functions use the corrected stride `Batching.Stride`. For a range with start <= end (and end+1 not wrapping) it equals the source's stride wherever that is positive. A range with start > end writes nothing under either stride. Where the source's stride is 0 its loop does not terminate; that case is covered under "## Findings".
- Submissions.RangeTraceSpans: the byte counts passed to `queueData` are stated as a tiling of each range's byte span, not as a sum of bytes.
- The source's `std::runtime_error` is modelled as an `Err` value, not as exception control flow.

## Findings

| source | as written | input that shows it | evidently intended | confidence | as-written member | corrected member |
|---|---|---|---|---|---|---|
| clickhouse-gpu/dbms/src/Interpreters/Cuda/tests/cuda_strings_aggregator_with_file.cpp:170-171 | `block_str_num = min(buffer_max_str_num/8, (end-start+1)/8)`, then `i += block_str_num` | five records with the default range [0, 4] (or any range with start <= end that has fewer than 8 rows or meets buffer_max_str_num < 8): the stride is 0 and the re-basing loop never ends (the same holds at 235-236) | every range is cut into batches of at least one row and the loop reaches end+1 | not executed; high | Batching.ShortRangeStalls | Batching.RangeLoopFinishes |
| clickhouse-gpu/dbms/src/Interpreters/Cuda/tests/cuda_strings_aggregator_with_file.cpp:153 | `lens.size()-1` for the default range's end | an empty keys block with no ranges: the end wraps to 2^64-1, the stride is 0, and the loop spins on row 0, which is only the sentinel | with no records there is nothing to visit | not executed; high | Batching.EmptyInputStalls | Sampling.ResolvePlan |
| clickhouse-gpu/dbms/src/Interpreters/Cuda/tests/cuda_strings_aggregator_with_file.cpp:164-181 | all ranges are re-based into one row-indexed `offsets64` before any call, then each call gets `&offsets64[i]` | ranges [0,7] and [0,15] with buffer_max_str_num 16: the second range re-bases row 1 against row 0, so the first range's batch [1,2) hands over offsets[1]-offsets[0] instead of 0 | each call's offsets are relative to its own first row | not executed; medium (ranges may overlap) | SharedTables.OverlapClobbersRebase | Submissions.PlanTraceDescribes |

The corrected model of lines 231-244, `Submissions.SubmitPlan`, re-bases each batch's tables when the batch is queued. `SharedTables.DisjointPlanAgrees` shows that this makes the same calls as the source whenever no two ranges overlap.

=== FILE: aggregates.dfy ===
/**
 The two supported aggregate functions, the factory that maps a function
 name to one of them, the name check main performs first, and the
 comparison of two result maps by the values the function reports.
 */
module Aggregates {
  import opened Results

  /** COUNT (createCudaAggregateFunctionCount) and uniqHLL12 (createCudaAggregateFunctionUniq). */
  datatype AggregateFunction = Count | UniqHLL12

  const COUNT_NAME: string := "COUNT"
  const UNIQ_NAME: string := "uniqHLL12"

  predicate IsKnownName(name: string) {
    name == COUNT_NAME || name == UNIQ_NAME
  }

  function NameOf(f: AggregateFunction): string {
    match f
    case Count => COUNT_NAME
    case UniqHLL12 => UNIQ_NAME
  }

  /** Lines 32-40: the function for a name, or the runtime_error the factory throws. */
  function CreateAggregateFunction(name: string): (r: Result<AggregateFunction>)
    ensures r.Ok? <==> IsKnownName(name)
    ensures r == Ok(Count) <==> name == COUNT_NAME
    ensures r == Ok(UniqHLL12) <==> name == UNIQ_NAME
    ensures r.Err? ==> r.error == RuntimeError("createAggregateFunction: unknown function name " + name)
  {
    if name == COUNT_NAME then Ok(Count)
    else if name == UNIQ_NAME then Ok(UniqHLL12)
    else Err(RuntimeError("createAggregateFunction: unknown function name " + name))
  }

  /** Lines 96-97: main rejects an unknown name before reading any input. */
  function CheckFunctionName(name: string): (r: Result<string>)
    ensures r.Ok? <==> IsKnownName(name)
    ensures r.Ok? ==> r.value == name
    ensures r.Err? ==> r.error == RuntimeError("unknown function name: " + name)
  {
    if name != COUNT_NAME && name != UNIQ_NAME then Err(RuntimeError("unknown function name: " + name))
    else Ok(name)
  }

  /** A name that passes main's check never makes the factory throw, and every other name does both. */
  lemma CheckedNameIsCreated(name: string)
    ensures CheckFunctionName(name).Ok? <==> CreateAggregateFunction(name).Ok?
    ensures CheckFunctionName(name).Ok? ==> NameOf(CreateAggregateFunction(name).value) == name
  {
  }

  /** The factory inverts NameOf: each function is created from its own name, and from no other. */
  lemma CreateNameOf(f: AggregateFunction, name: string)
    ensures CreateAggregateFunction(NameOf(f)) == Ok(f)
    ensures CreateAggregateFunction(name) == Ok(f) ==> name == NameOf(f)
  {
  }

  // ----- compare_results -----

  /** Both maps hold the same keys, and each key's data reports the same result. */
  predicate SameResults<S>(getResult: S -> int, res1: map<string, S>, res2: map<string, S>) {
    && res1.Keys == res2.Keys
    && forall key :: key in res1 ==> key in res2 && getResult(res1[key]) == getResult(res2[key])
  }

  /** What a result map reports: every key with the function's result for its data. */
  function Reported<S>(getResult: S -> int, res: map<string, S>): map<string, int> {
    map key | key in res :: getResult(res[key])
  }

  lemma SubsetSameSize(a: set<string>, b: set<string>)
    requires a <= b && |a| == |b|
    ensures a == b
  {
    assert a * b == a;
    assert a + b == b;
    assert a - b == {};
    assert |b - a| + |a - b| + |a * b| == |a + b|;
    assert b - a == {};
  }

  /**
   Lines 42-58: equal sizes, then every key of res1 found in res2 with the
   same result; the first mismatch ends the comparison.
   */
  method CompareResults<S>(getResult: S -> int, res1: map<string, S>, res2: map<string, S>) returns (same: bool)
    ensures same <==> SameResults(getResult, res1, res2)
  {
    if |res1| != |res2| {
      return false;
    }
    var rest := res1.Keys;
    while rest != {}
      invariant rest <= res1.Keys
      invariant forall key :: key in res1 && key !in rest ==> key in res2 && getResult(res1[key]) == getResult(res2[key])
      decreases |rest|
    {
      var key :| key in rest;
      if key !in res2 {
        return false;
      }
      if getResult(res1[key]) != getResult(res2[key]) {
        return false;
      }
      rest := rest - {key};
    }
    SubsetSameSize(res1.Keys, res2.Keys);
    return true;
  }

  /** Two result maps agree exactly when they report the same thing. */
  lemma {:induction false} SameResultsReported<S>(getResult: S -> int, res1: map<string, S>, res2: map<string, S>)
    ensures SameResults(getResult, res1, res2) <==> Reported(getResult, res1) == Reported(getResult, res2)
  {
    var m1, m2 := Reported(getResult, res1), Reported(getResult, res2);
    if m1 == m2 {
      assert res1.Keys == m1.Keys && res2.Keys == m2.Keys;
      forall key | key in res1
        ensures key in res2 && getResult(res1[key]) == getResult(res2[key])
      {
        assert m1[key] == m2[key];
      }
    }
  }

  /** Every result map compares equal to itself. */
  lemma SameResultsReflexive<S>(getResult: S -> int, res: map<string, S>)
    ensures SameResults(getResult, res, res)
  {
  }

  /** Comparing is symmetric: swapping the maps does not change the verdict. */
  lemma SameResultsSymmetric<S>(getResult: S -> int, res1: map<string, S>, res2: map<string, S>)
    ensures SameResults(getResult, res1, res2) <==> SameResults(getResult, res2, res1)
  {
  }
}

=== FILE: batching.dfy ===
/**
 Batch planning: each sampling range is cut into strides of block_str_num
 rows, each stride [i, next_i) is one batch, and the rows of a batch get
 offsets re-based to the batch's first row.
 */
module Batching {
  import opened Results
  import opened Records
  import opened Sampling

  /** The rows [lo, hi) handed to the engine in one call. */
  datatype Batch = Batch(lo: nat, hi: nat)

  function Min(a: nat, b: nat): nat {
    if a <= b then a else b
  }

  function Max(a: nat, b: nat): nat {
    if a <= b then b else a
  }

  /** block_str_num as written (lines 170 and 235); zero for short ranges or small buffers. */
  function StrideAsWritten(maxRows: nat, r: Range): (block: nat)
    ensures block <= maxRows / 8
    ensures r.start <= r.end < UINT64_LIMIT - 1 ==> block <= Rows(r) / 8
  {
    Min(maxRows / 8, Wrap64(r.end - r.start + 1) / 8)
  }

  /** Every range that selects rows gets a positive stride as written, so none of the source's loops stalls. */
  predicate StridesAdvance(plan: seq<Range>, maxRows: nat) {
    forall k :: 0 <= k < |plan| && plan[k].start <= plan[k].end ==> StrideAsWritten(maxRows, plan[k]) >= 1
  }

  /**
   The stride with the lower bound the loop needs to advance: at least one
   row, and the source's value whenever that is already positive.
   */
  function Stride(maxRows: nat, r: Range): (block: nat)
    ensures block >= 1
    ensures r.start <= r.end < UINT64_LIMIT - 1 && StrideAsWritten(maxRows, r) >= 1 ==>
              block == StrideAsWritten(maxRows, r)
    ensures block == 1 || (block <= maxRows / 8 && block <= Rows(r) / 8)
  {
    Max(1, Min(maxRows / 8, Rows(r) / 8))
  }

  /** The source's stride is positive exactly when the range and the row budget both reach 8. */
  lemma StrideAsWrittenPositive(maxRows: nat, r: Range)
    requires r.start <= r.end < UINT64_LIMIT - 1
    ensures StrideAsWritten(maxRows, r) >= 1 <==> maxRows >= 8 && Rows(r) >= 8
  {
  }

  /**
   The batches the stride loop visits from row i: [i, min(i+block, end+1)),
   then from i+block on, until i passes end. Each lies inside [i, end].
   */
  function Batches(i: nat, end: nat, block: nat): (bs: seq<Batch>)
    requires block >= 1
    ensures |bs| == 0 <==> i > end
    ensures forall k :: 0 <= k < |bs| ==> i <= bs[k].lo < bs[k].hi <= end + 1
    decreases end + 1 - i
  {
    if i > end then []
    else [Batch(i, Min(i + block, end + 1))] + Batches(i + block, end, block)
  }

  lemma BatchesUnfold(i: nat, end: nat, block: nat)
    requires block >= 1 && i <= end
    ensures Batches(i, end, block) == [Batch(i, Min(i + block, end + 1))] + Batches(i + block, end, block)
  {
  }

  /** Neighbouring batches meet: each one starts where the previous one ends. */
  predicate Contiguous(bs: seq<Batch>) {
    forall k, k' :: 0 <= k && k' == k + 1 < |bs| ==> bs[k].hi == bs[k'].lo
  }

  /**
   The batches of [i, end] start at i, end at end+1, meet one another, and
   each holds between 1 and block rows.
   */
  lemma {:induction false} BatchesShape(i: nat, end: nat, block: nat)
    requires block >= 1
    ensures var bs := Batches(i, end, block);
            && (|bs| > 0 ==> bs[0].lo == i && bs[|bs| - 1].hi == end + 1)
            && (forall k :: 0 <= k < |bs| ==> bs[k].hi - bs[k].lo <= block)
            && Contiguous(bs)
    decreases end + 1 - i
  {
    if i <= end {
      var bs := Batches(i, end, block);
      var rest := Batches(i + block, end, block);
      assert bs == [Batch(i, Min(i + block, end + 1))] + rest;
      BatchesShape(i + block, end, block);
      forall k, k' | 0 <= k && k' == k + 1 < |bs|
        ensures bs[k].hi == bs[k'].lo
      {
        if k > 0 {
          assert bs[k] == rest[k - 1] && bs[k'] == rest[k' - 1];
        }
      }
    }
  }

  /** The batches of one sampling range, with the corrected stride. */
  function RangeBatches(r: Range, maxRows: nat): seq<Batch> {
    Batches(r.start, r.end, Stride(maxRows, r))
  }

  /** The rows a sequence of batches covers, batch by batch. */
  function RowsOf(bs: seq<Batch>): seq<nat> {
    if |bs| == 0 then [] else Interval(bs[0].lo, bs[0].hi) + RowsOf(bs[1..])
  }

  lemma IntervalConcat(a: nat, b: nat, c: nat)
    requires a <= b <= c
    ensures Interval(a, b) + Interval(b, c) == Interval(a, c)
  {
  }

  /** The batches of a range list its rows in order, each exactly once: they partition [i, end]. */
  lemma {:induction false} BatchesFlatten(i: nat, end: nat, block: nat)
    requires block >= 1
    ensures RowsOf(Batches(i, end, block)) == Interval(i, end + 1)
    decreases end + 1 - i
  {
    var bs := Batches(i, end, block);
    if i > end {
      assert bs == [];
      assert Interval(i, end + 1) == [];
    } else {
      var h := Min(i + block, end + 1);
      var rest := Batches(i + block, end, block);
      assert bs == [Batch(i, h)] + rest;
      assert bs[1..] == rest;
      calc {
        RowsOf(bs);
        Interval(i, h) + RowsOf(rest);
        { BatchesFlatten(i + block, end, block); }
        Interval(i, h) + Interval(i + block, end + 1);
        { if i + block <= end + 1 { IntervalConcat(i, i + block, end + 1); }
          else { assert Interval(i + block, end + 1) == []; } }
        Interval(i, end + 1);
      }
    }
  }

  /** No two batches of a range share a row. */
  lemma {:induction false} BatchesDisjoint(i: nat, end: nat, block: nat, k1: nat, k2: nat)
    requires block >= 1
    requires k1 < k2 < |Batches(i, end, block)|
    ensures Batches(i, end, block)[k1].hi <= Batches(i, end, block)[k2].lo
    decreases k2 - k1
  {
    BatchesShape(i, end, block);
    if k1 + 1 < k2 {
      BatchesDisjoint(i, end, block, k1 + 1, k2);
    }
  }

  /** Every row of [i, end] lies in a batch; k is its position in the batch sequence. */
  lemma {:induction false} BatchOfRow(i: nat, end: nat, block: nat, row: nat) returns (k: nat)
    requires block >= 1
    requires i <= row <= end
    ensures k < |Batches(i, end, block)|
    ensures Batches(i, end, block)[k].lo <= row < Batches(i, end, block)[k].hi
    decreases end + 1 - i
  {
    var bs := Batches(i, end, block);
    var rest := Batches(i + block, end, block);
    assert bs == [Batch(i, Min(i + block, end + 1))] + rest;
    if row < Min(i + block, end + 1) {
      k := 0;
    } else {
      var k' := BatchOfRow(i + block, end, block, row);
      assert bs[k' + 1] == rest[k'];
      k := k' + 1;
    }
  }

  /**
   The source's stride loop (lines 171-173 and 236-238) run for at most fuel
   iterations; None means it had not reached i > end when the fuel ran out.
   */
  function StrideLoop(i: nat, end: nat, block: nat, fuel: nat): (r: Option<seq<Batch>>)
    ensures i > end ==> r == Some([])
    ensures block >= 1 && r.Some? ==> r.value == Batches(i, end, block)
    decreases fuel
  {
    if i > end then Some([])
    else if fuel == 0 then None
    else match StrideLoop(i + block, end, block, fuel - 1)
      case None => None
      case Some(rest) => Some([Batch(i, Min(i + block, end + 1))] + rest)
  }

  /** With a zero stride the loop never leaves a non-empty range, however long it runs. */
  lemma {:induction false} ZeroStrideStalls(i: nat, end: nat, fuel: nat)
    requires i <= end
    ensures StrideLoop(i, end, 0, fuel) == None
    decreases fuel
  {
    if fuel > 0 {
      ZeroStrideStalls(i, end, fuel - 1);
    }
  }

  /** With a positive stride the loop finishes within end+1-i iterations and yields Batches. */
  lemma {:induction false} StrideLoopFinishes(i: nat, end: nat, block: nat, fuel: nat)
    requires block >= 1
    requires i + fuel > end
    ensures StrideLoop(i, end, block, fuel) == Some(Batches(i, end, block))
    decreases fuel
  {
    if i <= end {
      StrideLoopFinishes(i + block, end, block, fuel - 1);
      assert Batches(i, end, block) == [Batch(i, Min(i + block, end + 1))] + Batches(i + block, end, block);
    }
  }

  /** Fewer than 8 rows in the range, or a row budget below 8, makes the source's loop spin forever. */
  lemma {:induction false} ShortRangeStalls(maxRows: nat, r: Range, fuel: nat)
    requires r.start <= r.end < UINT64_LIMIT - 1
    requires Rows(r) < 8 || maxRows < 8
    ensures StrideAsWritten(maxRows, r) == 0
    ensures StrideLoop(r.start, r.end, StrideAsWritten(maxRows, r), fuel) == None
  {
    ZeroStrideStalls(r.start, r.end, fuel);
  }

  /** The corrected stride lets the loop finish on every range, with the batches of RangeBatches. */
  lemma RangeLoopFinishes(maxRows: nat, r: Range)
    ensures StrideLoop(r.start, r.end, Stride(maxRows, r), Rows(r)) == Some(RangeBatches(r, maxRows))
  {
    StrideLoopFinishes(r.start, r.end, Stride(maxRows, r), Rows(r));
  }

  /**
   Wherever the source's stride is positive (and end+1 does not wrap), the
   source's loop finishes and visits exactly the batches of the corrected stride.
   */
  lemma AsWrittenLoopFinishes(maxRows: nat, r: Range)
    requires r.start <= r.end ==> r.end < UINT64_LIMIT - 1 && StrideAsWritten(maxRows, r) >= 1
    ensures StrideLoop(r.start, r.end, StrideAsWritten(maxRows, r), Rows(r)) == Some(RangeBatches(r, maxRows))
  {
    if r.start <= r.end {
      assert StrideAsWritten(maxRows, r) == Stride(maxRows, r);
      RangeLoopFinishes(maxRows, r);
    }
  }

  /** Empty input: the default range [0, 2^64-1] gets stride 0, so the re-basing loop never ends. */
  lemma {:induction false} EmptyInputStalls(maxRows: nat, fuel: nat)
    ensures var r := ResolvePlanAsWritten([], 0)[0];
            StrideAsWritten(maxRows, r) == 0 && StrideLoop(r.start, r.end, 0, fuel) == None
  {
    EmptyInputDefaultRange();
    ZeroStrideStalls(0, UINT64_LIMIT - 1, fuel);
  }

  /**
   The offsets of rows lo..hi-1 relative to row lo (lines 175-179 and the
   &offsets64[i] passed at lines 240-241).
   */
  function Rebase(offs: seq<int>, lo: nat, hi: nat): (t: seq<int>)
    requires lo <= hi < |offs|
    ensures |t| == hi - lo
    decreases hi - lo
  {
    if hi == lo then [] else Rebase(offs, lo, hi - 1) + [offs[hi - 1] - offs[lo]]
  }

  /** Adding the batch's first offset back to a re-based entry gives the row's offset in the block. */
  lemma {:induction false} RebaseAt(offs: seq<int>, lo: nat, hi: nat)
    requires lo <= hi < |offs|
    ensures forall k :: 0 <= k < hi - lo ==> offs[lo] + Rebase(offs, lo, hi)[k] == offs[lo + k]
    decreases hi - lo
  {
    if hi > lo {
      RebaseAt(offs, lo, hi - 1);
      var t := Rebase(offs, lo, hi);
      assert t == Rebase(offs, lo, hi - 1) + [offs[hi - 1] - offs[lo]];
      forall k | 0 <= k < hi - lo
        ensures offs[lo] + t[k] == offs[lo + k]
      {
        if k < hi - 1 - lo {
          assert t[k] == Rebase(offs, lo, hi - 1)[k];
        }
      }
    }
  }

  /** A re-based table starts at 0, keeps the order of the block's offsets and stays below the span length. */
  lemma RebaseShape(offs: seq<int>, lo: nat, hi: nat)
    requires lo <= hi < |offs| && Increasing(offs)
    ensures var t := Rebase(offs, lo, hi);
            && (lo < hi ==> t[0] == 0)
            && Increasing(t)
            && (forall k :: 0 <= k < |t| ==> 0 <= t[k])
            && forall k :: 0 <= k < |t| ==> t[k] < offs[hi] - offs[lo]
  {
    RebaseAt(offs, lo, hi);
  }

  /**
   A re-based table, closed with the span length, is the record table of the
   batch's byte span, and each of its entries is the block offset of the same
   row minus the batch's first offset.
   */
  lemma RebasedDelimitsSpan(buf: seq<char>, offs: seq<nat>, lo: nat, hi: nat)
    requires Delimits(buf, offs) && Increasing(offs)
    requires lo <= hi < |offs|
    ensures offs[hi] <= |buf|
    ensures var span := buf[offs[lo]..offs[hi]];
            var t := Rebase(offs, lo, hi) + [offs[hi] - offs[lo]];
            && Delimits(span, t)
            && forall k :: 0 <= k <= hi - lo ==> offs[lo] + t[k] == offs[lo + k]
  {
    DelimitsIncreasing(buf, offs);
    var base := offs[lo];
    var span := buf[base..offs[hi]];
    var t := Rebase(offs, lo, hi) + [offs[hi] - base];
    RebaseAt(offs, lo, hi);
    assert forall k :: 0 <= k <= hi - lo ==> t[k] == offs[lo + k] - base;
    forall k | 0 <= k < |t| - 1
      ensures IsRecord(span, t[k], t[k + 1])
    {
      assert IsRecord(buf, offs[lo + k], offs[lo + k + 1]);
    }
  }

}

=== FILE: driver.dfy ===
/**
 The host side of main, in the order the program runs it: check the
 function name, index both blocks, resolve the sampling plan and its row
 total, create the aggregate function, then submit every batch of every
 range to the engine. Reading the blocks and the ranges from the strings
 file is not modelled: they arrive as parameters.
 */
module Driver {
  import opened Results
  import opened Records
  import opened Sampling
  import opened Batching
  import opened Submissions
  import opened SharedTables
  import opened Aggregates

  /** What a successful run leaves behind: the engine's log and what it was built from. */
  datatype RunOutcome = RunOutcome(
    aggregate: AggregateFunction,
    index: Index,
    plan: seq<Range>,
    totalRows: nat,
    log: seq<Submission>)

  /**
   Where main as written finishes, it makes the corrected calls. That takes a
   positive source stride for every range that selects rows (which rules out
   the empty input, whose default range gets stride 0) and no two ranges
   sharing a row. Then the source's
   default plan is the resolved plan, every stride loop finishes with the
   batches of the corrected stride, and the slices of the shared offsets64
   tables are the per-batch re-based tables.
   */
  lemma MainAsWrittenAgrees(idx: Index, ranges: seq<Range>, maxRows: nat)
    requires idx.Valid() && idx.Count() < UINT64_LIMIT - 1
    requires AllInBounds(ranges, idx.Count())
    requires StridesAdvance(ResolvePlanAsWritten(ranges, idx.Count()), maxRows)
    requires PairwiseDisjoint(ResolvePlanAsWritten(ranges, idx.Count()))
    ensures ResolvePlanAsWritten(ranges, idx.Count()) == ResolvePlan(ranges, idx.Count())
    ensures AllInBounds(ResolvePlan(ranges, idx.Count()), idx.Count())
    ensures var plan := ResolvePlan(ranges, idx.Count());
            forall k :: 0 <= k < |plan| ==>
              StrideLoop(plan[k].start, plan[k].end, StrideAsWritten(maxRows, plan[k]), Rows(plan[k]))
                == Some(RangeBatches(plan[k], maxRows))
    ensures PlanTraceAsWritten(idx, ResolvePlan(ranges, idx.Count()), maxRows)
         == PlanTrace(idx, PerBatch, ResolvePlan(ranges, idx.Count()), maxRows)
  {
    var n := idx.Count();
    if |ranges| == 0 && n == 0 {
      EmptyInputStalls(maxRows, 0);
      assert false;
    }
    if |ranges| == 0 {
      DefaultPlanAgrees(ranges, n);
    }
    var plan := ResolvePlan(ranges, n);
    forall k | 0 <= k < |plan|
      ensures StrideLoop(plan[k].start, plan[k].end, StrideAsWritten(maxRows, plan[k]), Rows(plan[k]))
                == Some(RangeBatches(plan[k], maxRows))
    {
      AsWrittenLoopFinishes(maxRows, plan[k]);
    }
    DisjointPlanAgrees(idx, plan, maxRows);
  }

  /**
   The corrected main from line 96 to line 244, for key and value blocks of NUL-terminated
   records, the sampling ranges of the strings file, and the row budget
   buffer_max_str_num. An unknown function name fails before anything else, whatever the
   blocks and ranges are, so the conditions on them apply only to a known name.
   */
  method Run(functionName: string, keys: seq<char>, vals: seq<char>, ranges: seq<Range>, maxRows: nat)
    returns (result: Result<RunOutcome>)
    requires IsKnownName(functionName) ==>
               && WellTerminated(keys)
               && RecordCount(vals) >= RecordCount(keys)
               && |keys| < UINT32_LIMIT && |vals| < UINT32_LIMIT
               && AllInBounds(ranges, RecordCount(keys))
    ensures result.Err? <==> !IsKnownName(functionName)
    ensures result.Err? ==> result.error == RuntimeError("unknown function name: " + functionName)
    ensures result.Ok? ==>
              var out := result.value;
              && CreateAggregateFunction(functionName) == Ok(out.aggregate)
              && out.index.Valid() && out.index.Count() == RecordCount(keys)
              && Delimits(keys, out.index.offsets) && Delimits(vals, out.index.valOffsets)
              && out.index.offsets[out.index.Count()] == |keys|
              && (forall i :: 0 <= i < out.index.Count() ==>
                    && out.index.lens[i] == out.index.offsets[i + 1] - out.index.offsets[i]
                    && out.index.valLens[i] == out.index.valOffsets[i + 1] - out.index.valOffsets[i])
              && out.plan == ResolvePlan(ranges, RecordCount(keys))
              && out.totalRows == TotalRowsAsWritten(out.plan)
              && AllInBounds(out.plan, out.index.Count())
              && out.log == PlanTrace(out.index, PerBatch, out.plan, maxRows)
              && RowsSubmitted(out.log) == PlanRows(out.plan)
              && AllDescribe(keys, vals, out.log)
    ensures result.Ok?
            && StridesAdvance(ResolvePlanAsWritten(ranges, RecordCount(keys)), maxRows)
            && PairwiseDisjoint(ResolvePlanAsWritten(ranges, RecordCount(keys))) ==>
              && result.value.plan == ResolvePlanAsWritten(ranges, RecordCount(keys))
              && result.value.log == PlanTraceAsWritten(result.value.index, result.value.plan, maxRows)
  {
    var checked := CheckFunctionName(functionName);
    if checked.Err? {
      return Err(checked.error);
    }
    var idx, strNum := IndexRecords(keys, vals);
    var plan := ResolvePlan(ranges, strNum);
    var totalRows := TotalRowsAsWritten(plan);
    CheckedNameIsCreated(functionName);
    var aggregate := CreateAggregateFunction(functionName).value;
    var log := SubmitPlan(idx, plan, maxRows);
    PlanTraceRows(idx, PerBatch, plan, maxRows);
    PlanTraceDescribes(keys, vals, idx, plan, maxRows);
    if StridesAdvance(ResolvePlanAsWritten(ranges, strNum), maxRows) && PairwiseDisjoint(ResolvePlanAsWritten(ranges, strNum)) {
      RecordCountBound(keys);
      MainAsWrittenAgrees(idx, ranges, maxRows);
    }
    return Ok(RunOutcome(aggregate, idx, plan, totalRows, log));
  }
}

=== FILE: records.dfy ===
/**
 Record indexing: the scan that walks the NUL-terminated keys block and, in
 lockstep, the values block, and builds the offset tables (with a trailing
 sentinel) and the length tables of both.
 */
module Records {

  const NUL: char := '\0'

  /** Offsets and lengths are UInt32 in the source. */
  const UINT32_LIMIT: nat := 0x1_0000_0000

  /** Every record of the block is terminated, so a non-empty block ends with NUL. */
  predicate WellTerminated(buf: seq<char>) {
    |buf| == 0 || buf[|buf| - 1] == NUL
  }

  /** A terminator exists at or after position p (what strchr needs to stay inside the block). */
  predicate HasNulFrom(buf: seq<char>, p: nat) {
    exists q :: p <= q < |buf| && buf[q] == NUL
  }

  /** The position strchr(&buf[p], '\0') returns: the first NUL at or after p. */
  function NextNul(buf: seq<char>, p: nat): (q: nat)
    requires HasNulFrom(buf, p)
    ensures p <= q < |buf| && buf[q] == NUL
    ensures forall j :: p <= j < q ==> buf[j] != NUL
    decreases |buf| - p
  {
    if buf[p] == NUL then p else NextNul(buf, p + 1)
  }

  /** Number of terminators from position p on, i.e. the records that start at or after p. */
  function NulCountFrom(buf: seq<char>, p: nat): nat
    decreases |buf| - p
  {
    if p >= |buf| then 0
    else (if buf[p] == NUL then 1 else 0) + NulCountFrom(buf, p + 1)
  }

  /** Number of records in a block. */
  function RecordCount(buf: seq<char>): nat {
    NulCountFrom(buf, 0)
  }

  /** There are never more records after p than characters after p. */
  lemma {:induction false} NulCountBound(buf: seq<char>, p: nat)
    ensures NulCountFrom(buf, p) <= if p <= |buf| then |buf| - p else 0
    decreases |buf| - p
  {
    if p < |buf| {
      NulCountBound(buf, p + 1);
    }
  }

  /** A block holds at most as many records as it has characters. */
  lemma RecordCountBound(buf: seq<char>)
    ensures RecordCount(buf) <= |buf|
  {
    NulCountBound(buf, 0);
  }

  /** buf[lo..hi] is exactly one record: it ends with NUL and holds no other NUL. */
  predicate IsRecord(buf: seq<char>, lo: int, hi: int) {
    && 0 <= lo < hi <= |buf|
    && buf[hi - 1] == NUL
    && forall j :: lo <= j < hi - 1 ==> buf[j] != NUL
  }

  /** offs starts at 0 and each pair of neighbouring entries brackets one record of buf. */
  predicate Delimits(buf: seq<char>, offs: seq<int>) {
    && |offs| >= 1
    && offs[0] == 0
    && forall i :: 0 <= i < |offs| - 1 ==> IsRecord(buf, offs[i], offs[i + 1])
  }

  predicate Increasing(s: seq<int>) {
    forall i, j :: 0 <= i < j < |s| ==> s[i] < s[j]
  }

  /** The tables built by the scan: offsets with sentinel, and lengths, for keys and values. */
  datatype Index = Index(offsets: seq<nat>, lens: seq<nat>, valOffsets: seq<nat>, valLens: seq<nat>)
  {
    /** Number of indexed rows (lens.size() in the source). */
    function Count(): nat {
      |lens|
    }

    /** Both offset tables carry one entry per row plus the sentinel. */
    predicate Shaped() {
      |offsets| == |lens| + 1 && |valOffsets| == |offsets|
    }

    /** Shape every later stage relies on: sentinel tables of Count()+1 increasing entries from 0. */
    predicate Valid() {
      && Shaped()
      && |valLens| == |lens|
      && offsets[0] == 0 && valOffsets[0] == 0
      && Increasing(offsets) && Increasing(valOffsets)
    }
  }

  lemma {:induction false} NulCountSkip(buf: seq<char>, p: nat, q: nat)
    requires p <= q <= |buf|
    requires forall j :: p <= j < q ==> buf[j] != NUL
    ensures NulCountFrom(buf, p) == NulCountFrom(buf, q)
    decreases q - p
  {
    if p < q {
      NulCountSkip(buf, p + 1, q);
    }
  }

  /** Stepping past one record consumes exactly one terminator. */
  lemma NulCountStep(buf: seq<char>, p: nat)
    requires HasNulFrom(buf, p)
    ensures NulCountFrom(buf, p) == 1 + NulCountFrom(buf, NextNul(buf, p) + 1)
  {
    NulCountSkip(buf, p, NextNul(buf, p));
  }

  lemma {:induction false} NulCountWitness(buf: seq<char>, p: nat)
    requires NulCountFrom(buf, p) > 0
    ensures HasNulFrom(buf, p)
    decreases |buf| - p
  {
    if buf[p] != NUL {
      NulCountWitness(buf, p + 1);
    }
  }

  lemma DelimitsExtend(buf: seq<char>, offs: seq<nat>, q: nat)
    requires Delimits(buf, offs)
    requires IsRecord(buf, offs[|offs| - 1], q)
    ensures Delimits(buf, offs + [q])
  {
    var s := offs + [q];
    forall i | 0 <= i < |s| - 1
      ensures IsRecord(buf, s[i], s[i + 1])
    {
      if i < |offs| - 1 {
        assert s[i] == offs[i] && s[i + 1] == offs[i + 1];
      }
    }
  }

  lemma {:induction false} DelimitsChain(buf: seq<char>, offs: seq<nat>, i: nat, j: nat)
    requires Delimits(buf, offs)
    requires i < j < |offs|
    ensures offs[i] < offs[j] <= |buf|
    decreases j - i
  {
    assert IsRecord(buf, offs[j - 1], offs[j]);
    if i < j - 1 {
      DelimitsChain(buf, offs, i, j - 1);
    }
  }

  /** A record table is strictly increasing and stays inside its block. */
  lemma DelimitsIncreasing(buf: seq<char>, offs: seq<nat>)
    requires Delimits(buf, offs)
    ensures Increasing(offs)
    ensures forall i :: 0 <= i < |offs| ==> offs[i] <= |buf|
  {
    forall i, j | 0 <= i < j < |offs|
      ensures offs[i] < offs[j]
    {
      DelimitsChain(buf, offs, i, j);
    }
    forall i | 0 < i < |offs|
      ensures offs[i] <= |buf|
    {
      DelimitsChain(buf, offs, 0, i);
    }
  }

  lemma RecordEndUnique(buf: seq<char>, lo: nat, h1: nat, h2: nat)
    requires IsRecord(buf, lo, h1) && IsRecord(buf, lo, h2)
    ensures h1 == h2
  {
  }

  lemma {:induction false} DelimitsEntryUnique(buf: seq<char>, a: seq<nat>, b: seq<nat>, i: nat)
    requires Delimits(buf, a) && Delimits(buf, b) && |a| == |b|
    requires i < |a|
    ensures a[i] == b[i]
    decreases i
  {
    if i > 0 {
      DelimitsEntryUnique(buf, a, b, i - 1);
      assert IsRecord(buf, a[i - 1], a[i]) && IsRecord(buf, b[i - 1], b[i]);
      RecordEndUnique(buf, a[i - 1], a[i], b[i]);
    }
  }

  /** A block has at most one record table of each length: the index is determined by the block. */
  lemma DelimitsUnique(buf: seq<char>, a: seq<nat>, b: seq<nat>)
    requires Delimits(buf, a) && Delimits(buf, b) && |a| == |b|
    ensures a == b
  {
    forall i | 0 <= i < |a|
      ensures a[i] == b[i]
    {
      DelimitsEntryUnique(buf, a, b, i);
    }
  }

  /**
   What the scan knows after it has reached position cur of one block:
   offs holds the starts of the records passed so far, cur ends the last of
   them, and lens holds the lengths of all but the last record passed.
   */
  predicate Scanned(buf: seq<char>, offs: seq<nat>, lens: seq<nat>, cur: nat) {
    && Delimits(buf, offs + [cur])
    && |lens| == (if |offs| == 0 then 0 else |offs| - 1)
    && forall i :: 0 <= i < |lens| ==> offs[i] + lens[i] == offs[i + 1]
  }

  /** The tables one block contributes once the scan has pushed its sentinel. */
  predicate Closed(buf: seq<char>, offs: seq<nat>, lens: seq<nat>) {
    && Delimits(buf, offs)
    && |lens| == |offs| - 1
    && forall i :: 0 <= i < |lens| ==> offs[i] + lens[i] == offs[i + 1]
  }

  /** The length pushed for the previous record (lines 122-126 and 136-140). */
  function PushLength(offs: seq<nat>, lens: seq<nat>, cur: nat): seq<nat>
    requires |offs| > 0 ==> offs[|offs| - 1] <= cur
  {
    if |offs| > 0 then lens + [cur - offs[|offs| - 1]] else lens
  }

  lemma ScanStep(buf: seq<char>, offs: seq<nat>, lens: seq<nat>, cur: nat, next: nat)
    requires Scanned(buf, offs, lens, cur)
    requires IsRecord(buf, cur, next)
    ensures |offs| > 0 ==> offs[|offs| - 1] <= cur
    ensures Scanned(buf, offs + [cur], PushLength(offs, lens, cur), next)
  {
    var s := offs + [cur];
    if |offs| > 0 {
      assert IsRecord(buf, s[|offs| - 1], s[|offs|]);
    }
    DelimitsExtend(buf, s, next);
    var lens' := PushLength(offs, lens, cur);
    forall i | 0 <= i < |lens'|
      ensures s[i] + lens'[i] == s[i + 1]
    {
      if i < |lens| {
        assert s[i] == offs[i] && s[i + 1] == offs[i + 1];
      }
    }
  }

  lemma ScanClose(buf: seq<char>, offs: seq<nat>, lens: seq<nat>, cur: nat)
    requires Scanned(buf, offs, lens, cur)
    ensures |offs| > 0 ==> offs[|offs| - 1] <= cur
    ensures Closed(buf, offs + [cur], PushLength(offs, lens, cur))
    ensures Increasing(offs + [cur])
    ensures forall i :: 0 <= i < |PushLength(offs, lens, cur)| ==> PushLength(offs, lens, cur)[i] >= 1
  {
    var s := offs + [cur];
    if |offs| > 0 {
      assert IsRecord(buf, s[|offs| - 1], s[|offs|]);
    }
    DelimitsIncreasing(buf, s);
    var lens' := PushLength(offs, lens, cur);
    forall i | 0 <= i < |lens'|
      ensures s[i] + lens'[i] == s[i + 1] && lens'[i] >= 1
    {
      if i < |lens| {
        assert s[i] == offs[i] && s[i + 1] == offs[i + 1];
      }
      assert s[i] < s[i + 1];
    }
  }

  /** One step of the lockstep walk: both cursors find a terminator and each passes one record. */
  lemma AdvanceBoth(keys: seq<char>, vals: seq<char>, cur: nat, curVal: nat)
    requires WellTerminated(keys) && cur < |keys|
    requires NulCountFrom(vals, curVal) >= NulCountFrom(keys, cur)
    ensures HasNulFrom(keys, cur) && HasNulFrom(vals, curVal)
    ensures IsRecord(keys, cur, NextNul(keys, cur) + 1)
    ensures IsRecord(vals, curVal, NextNul(vals, curVal) + 1)
    ensures NulCountFrom(keys, cur) == 1 + NulCountFrom(keys, NextNul(keys, cur) + 1)
    ensures NulCountFrom(vals, NextNul(vals, curVal) + 1) >= NulCountFrom(keys, NextNul(keys, cur) + 1)
  {
    assert HasNulFrom(keys, cur) by {
      assert keys[|keys| - 1] == NUL;
    }
    NulCountStep(keys, cur);
    NulCountWitness(vals, curVal);
    NulCountStep(vals, curVal);
  }

  /**
   The scanning loop: for every key record, push the start of the record in
   both blocks, and the length of the previous record once there is one.
   The values block is walked in lockstep and must hold at least as many
   records; any further value records are never reached.
   */
  method ScanRecords(keys: seq<char>, vals: seq<char>)
    returns (offsets: seq<nat>, lens: seq<nat>, valOffsets: seq<nat>, valLens: seq<nat>,
             cur: nat, curVal: nat, strNum: nat)
    requires WellTerminated(keys)
    requires RecordCount(vals) >= RecordCount(keys)
    ensures cur == |keys| && strNum == RecordCount(keys)
    ensures |offsets| == strNum && |valOffsets| == strNum
    ensures Scanned(keys, offsets, lens, cur) && Scanned(vals, valOffsets, valLens, curVal)
  {
    cur, curVal := 0, 0;
    offsets, lens, valOffsets, valLens := [], [], [], [];
    strNum := 0;
    while cur != |keys|
      invariant cur <= |keys|
      invariant |offsets| == strNum && |valOffsets| == strNum
      invariant Scanned(keys, offsets, lens, cur) && Scanned(vals, valOffsets, valLens, curVal)
      invariant strNum + NulCountFrom(keys, cur) == RecordCount(keys)
      invariant NulCountFrom(vals, curVal) >= NulCountFrom(keys, cur)
      decreases |keys| - cur
    {
      offsets, lens, valOffsets, valLens, cur, curVal, strNum :=
        ScanNext(keys, vals, offsets, lens, valOffsets, valLens, cur, curVal, strNum);
    }
  }

  /** One pass of the scanning loop's body (lines 120-132): pass one record in each block. */
  method ScanNext(keys: seq<char>, vals: seq<char>, offsets: seq<nat>, lens: seq<nat>,
                  valOffsets: seq<nat>, valLens: seq<nat>, cur: nat, curVal: nat, strNum: nat)
    returns (offsets': seq<nat>, lens': seq<nat>, valOffsets': seq<nat>, valLens': seq<nat>,
             cur': nat, curVal': nat, strNum': nat)
    requires WellTerminated(keys) && cur < |keys|
    requires |offsets| == strNum && |valOffsets| == strNum
    requires Scanned(keys, offsets, lens, cur) && Scanned(vals, valOffsets, valLens, curVal)
    requires strNum + NulCountFrom(keys, cur) == RecordCount(keys)
    requires NulCountFrom(vals, curVal) >= NulCountFrom(keys, cur)
    ensures HasNulFrom(keys, cur) && HasNulFrom(vals, curVal)
    ensures cur' == NextNul(keys, cur) + 1 && curVal' == NextNul(vals, curVal) + 1
    ensures strNum' == strNum + 1 && offsets' == offsets + [cur] && valOffsets' == valOffsets + [curVal]
    ensures cur < cur' <= |keys|
    ensures |offsets'| == strNum' && |valOffsets'| == strNum'
    ensures Scanned(keys, offsets', lens', cur') && Scanned(vals, valOffsets', valLens', curVal')
    ensures strNum' + NulCountFrom(keys, cur') == RecordCount(keys)
    ensures NulCountFrom(vals, curVal') >= NulCountFrom(keys, cur')
  {
    AdvanceBoth(keys, vals, cur, curVal);
    cur' := NextNul(keys, cur) + 1;
    curVal' := NextNul(vals, curVal) + 1;
    ScanStep(keys, offsets, lens, cur, cur');
    ScanStep(vals, valOffsets, valLens, curVal, curVal');
    lens' := PushLength(offsets, lens, cur);
    valLens' := PushLength(valOffsets, valLens, curVal);
    offsets' := offsets + [cur];
    valOffsets' := valOffsets + [curVal];
    strNum' := strNum + 1;
  }

  /**
   Record indexing: offsets/offsets_vals get one entry per key record and a
   sentinel after the last one, and lens[i] = offsets[i+1] - offsets[i]
   (the length counts the terminator).
   */
  method IndexRecords(keys: seq<char>, vals: seq<char>) returns (idx: Index, strNum: nat)
    requires WellTerminated(keys)
    requires RecordCount(vals) >= RecordCount(keys)
    requires |keys| < UINT32_LIMIT && |vals| < UINT32_LIMIT
    ensures strNum == RecordCount(keys) == idx.Count()
    ensures idx.Valid()
    ensures Delimits(keys, idx.offsets) && idx.offsets[strNum] == |keys|
    ensures Delimits(vals, idx.valOffsets) && idx.valOffsets[strNum] <= |vals|
    ensures forall i :: 0 <= i < strNum ==> idx.lens[i] == idx.offsets[i + 1] - idx.offsets[i]
    ensures forall i :: 0 <= i < strNum ==> idx.valLens[i] == idx.valOffsets[i + 1] - idx.valOffsets[i]
    ensures forall i :: 0 <= i < strNum ==> idx.lens[i] >= 1 && idx.valLens[i] >= 1
  {
    var offsets, lens, valOffsets, valLens, cur, curVal;
    offsets, lens, valOffsets, valLens, cur, curVal, strNum := ScanRecords(keys, vals);
    ScanClose(keys, offsets, lens, cur);
    ScanClose(vals, valOffsets, valLens, curVal);
    lens := PushLength(offsets, lens, cur);
    valLens := PushLength(valOffsets, valLens, curVal);
    offsets := offsets + [cur];
    valOffsets := valOffsets + [curVal];
    DelimitsIncreasing(vals, valOffsets);
    idx := Index(offsets, lens, valOffsets, valLens);
  }
}

=== FILE: results.dfy ===
/** Failure-carrying values shared by the pipeline's modules. */
module Results {

  /** A value that may be absent; used for loops that run out of their iteration budget. */
  datatype Option<T> = None | Some(value: T)

  /** A std::runtime_error, with its message, thrown before any batch is prepared. */
  datatype Error = RuntimeError(message: string)

  /** Either a value or the error the source would throw. */
  datatype Result<T> = Ok(value: T) | Err(error: Error)
}

=== FILE: sampling.dfy ===
/**
 Sampling ranges: the inclusive row ranges read from the input file, the
 single all-rows range substituted when there are none, and the reported
 row total.
 */
module Sampling {

  /** size_t arithmetic in the source wraps modulo 2^64. */
  const UINT64_LIMIT: nat := 0x1_0000_0000_0000_0000

  function Wrap64(x: int): nat {
    x % UINT64_LIMIT
  }

  /** An inclusive row range [start, end]; a range with end < start selects no rows. */
  datatype Range = Range(start: nat, end: nat)

  function Rows(r: Range): nat {
    if r.start <= r.end then r.end - r.start + 1 else 0
  }

  predicate Contains(r: Range, row: nat) {
    r.start <= row <= r.end
  }

  /** Every row the range selects exists among the n indexed rows. */
  predicate InBounds(r: Range, n: nat) {
    r.end < r.start || r.end < n
  }

  predicate AllInBounds(plan: seq<Range>, n: nat) {
    forall k :: 0 <= k < |plan| ==> InBounds(plan[k], n)
  }

  /** The rows a < b, in increasing order. */
  function Interval(a: nat, b: nat): seq<nat> {
    seq(if a <= b then b - a else 0, k => a + k)
  }

  function RangeRows(r: Range): seq<nat> {
    Interval(r.start, r.end + 1)
  }

  /** The rows a plan visits, range by range in processing order. */
  function PlanRows(plan: seq<Range>): seq<nat> {
    if |plan| == 0 then [] else PlanRows(plan[..|plan| - 1]) + RangeRows(plan[|plan| - 1])
  }

  function SumRows(plan: seq<Range>): nat {
    if |plan| == 0 then 0 else Rows(plan[0]) + SumRows(plan[1..])
  }

  /** Lines 146-154 as written: with no ranges, one range [0, lens.size()-1] computed in size_t. */
  function ResolvePlanAsWritten(ranges: seq<Range>, n: nat): (plan: seq<Range>)
    ensures |plan| >= 1
    ensures |ranges| > 0 ==> plan == ranges
    ensures |ranges| == 0 && 0 < n <= UINT64_LIMIT ==> PlanRows(plan) == Interval(0, n)
  {
    if |ranges| == 0 then
      assert PlanRows([Range(0, Wrap64(n - 1))]) == PlanRows([]) + RangeRows(Range(0, Wrap64(n - 1)));
      [Range(0, Wrap64(n - 1))]
    else ranges
  }

  /**
   Lines 146-154 with the empty input handled: the ranges are used as given,
   and when there are none every indexed row is selected once, in order.
   */
  function ResolvePlan(ranges: seq<Range>, n: nat): (plan: seq<Range>)
    ensures |ranges| > 0 ==> plan == ranges
    ensures |ranges| == 0 ==> PlanRows(plan) == Interval(0, n)
    ensures AllInBounds(ranges, n) ==> AllInBounds(plan, n)
  {
    if |ranges| > 0 then ranges
    else if n == 0 then []
    else
      assert PlanRows([Range(0, n - 1)]) == PlanRows([]) + RangeRows(Range(0, n - 1));
      [Range(0, n - 1)]
  }

  /** Empty input makes lens.size()-1 wrap: the default range ends at 2^64-1, beyond every row. */
  lemma EmptyInputDefaultRange()
    ensures ResolvePlanAsWritten([], 0) == [Range(0, UINT64_LIMIT - 1)]
    ensures !InBounds(ResolvePlanAsWritten([], 0)[0], 0)
    ensures ResolvePlan([], 0) == []
  {
  }

  /** With at least one row (and a size_t row count), the source's default plan is the corrected one. */
  lemma DefaultPlanAgrees(ranges: seq<Range>, n: nat)
    requires 0 < n < UINT64_LIMIT
    ensures ResolvePlanAsWritten(ranges, n) == ResolvePlan(ranges, n)
  {
  }

  /** Lines 155-157: total_str_num accumulates end-start+1 per range in size_t. */
  function TotalRowsAsWritten(plan: seq<Range>): (total: nat)
    ensures total < UINT64_LIMIT
  {
    if |plan| == 0 then 0
    else Wrap64(Wrap64(plan[0].end - plan[0].start + 1) + TotalRowsAsWritten(plan[1..]))
  }

  /** The reported total is the number of selected rows when no range is reversed and nothing wraps. */
  lemma {:induction false} TotalRowsExact(plan: seq<Range>)
    requires forall k :: 0 <= k < |plan| ==> plan[k].start <= plan[k].end + 1
    requires SumRows(plan) < UINT64_LIMIT
    ensures TotalRowsAsWritten(plan) == SumRows(plan)
  {
    if |plan| > 0 {
      assert forall k :: 0 <= k < |plan[1..]| ==> plan[1..][k] == plan[k + 1];
      TotalRowsExact(plan[1..]);
      assert plan[0].end - plan[0].start + 1 == Rows(plan[0]);
    }
  }

  lemma {:induction false} PlanRowsLength(plan: seq<Range>)
    ensures |PlanRows(plan)| == SumRows(plan)
    decreases |plan|
  {
    if |plan| > 0 {
      var init := plan[..|plan| - 1];
      PlanRowsLength(init);
      SumRowsSnoc(init, plan[|plan| - 1]);
      assert init + [plan[|plan| - 1]] == plan;
    }
  }

  lemma {:induction false} SumRowsSnoc(plan: seq<Range>, r: Range)
    ensures SumRows(plan + [r]) == SumRows(plan) + Rows(r)
    decreases |plan|
  {
    if |plan| == 0 {
      assert (plan + [r])[1..] == [];
    } else {
      assert (plan + [r])[1..] == plan[1..] + [r];
      SumRowsSnoc(plan[1..], r);
    }
  }
}

=== FILE: shared.dfy ===
/**
 The offsets64 tables as the program builds them: one row-indexed table per
 block, zero-filled (lines 162-163), then re-based batch by batch for every
 sampling range in turn (lines 164-181), all before the first submission.
 Each queueData call then hands over a slice of these tables (lines 240-241).
 Where ranges do not overlap this is the same as re-basing each batch on its
 own; where they do, a later range overwrites the entries an earlier range's
 batches rely on.

 The stride used here is the corrected one (Batching.Stride); with the
 stride as written, ranges under 8 rows never finish (Batching.ShortRangeStalls).
 */
module SharedTables {
  import opened Records
  import opened Sampling
  import opened Batching
  import opened Submissions

  function Zeros(n: nat): (t: seq<int>)
    ensures |t| == n
  {
    seq(n, _ => 0)
  }

  /** Lines 175-179 for one batch: rows lo..hi-1 get their offset relative to row lo; other rows keep theirs. */
  function WriteBatch(t: seq<int>, offs: seq<int>, lo: nat, hi: nat): (t': seq<int>)
    requires |t| == |offs| && lo <= hi < |offs|
    ensures |t'| == |t|
    ensures t'[lo..hi] == Rebase(offs, lo, hi)
    ensures forall row :: 0 <= row < |t| && !(lo <= row < hi) ==> t'[row] == t[row]
  {
    RebaseAt(offs, lo, hi);
    seq(|t|, row requires 0 <= row < |t| => if lo <= row < hi then offs[row] - offs[lo] else t[row])
  }

  /** The stride loop of lines 171-180 over one range, writing into the shared table. */
  function RebaseRangeAsWritten(t: seq<int>, offs: seq<int>, i: nat, end: nat, block: nat): (t': seq<int>)
    requires |t| == |offs| && block >= 1
    requires i > end || end + 1 < |offs|
    ensures |t'| == |t|
    decreases end + 1 - i
  {
    if i > end then t
    else RebaseRangeAsWritten(WriteBatch(t, offs, i, Min(i + block, end + 1)), offs, i + block, end, block)
  }

  /**
   Every batch of the range [i, end] finds in t exactly its own re-based
   offsets: the slice a queueData call hands over is the per-batch table.
   */
  predicate RangeRebased(t: seq<int>, offs: seq<int>, i: nat, end: nat, block: nat)
    requires |t| == |offs| && block >= 1
    requires i > end || end + 1 < |offs|
    decreases end + 1 - i
  {
    i > end ||
    (t[i..Min(i + block, end + 1)] == Rebase(offs, i, Min(i + block, end + 1))
     && RangeRebased(t, offs, i + block, end, block))
  }

  /** Writing one range's batches leaves every row outside the range untouched. */
  lemma {:induction false} RebaseRangeFrame(t: seq<int>, offs: seq<int>, i: nat, end: nat, block: nat, row: nat)
    requires |t| == |offs| && block >= 1
    requires i > end || end + 1 < |offs|
    requires row < |t| && (row < i || row > end)
    ensures RebaseRangeAsWritten(t, offs, i, end, block)[row] == t[row]
    decreases end + 1 - i
  {
    if i <= end {
      var next := Min(i + block, end + 1);
      var t1 := WriteBatch(t, offs, i, next);
      assert t1[row] == t[row];
      RebaseRangeFrame(t1, offs, i + block, end, block, row);
    }
  }

  /** After the loop over a range, every batch of the range sees its own re-based offsets. */
  lemma {:induction false} RebaseRangeRebased(t: seq<int>, offs: seq<int>, i: nat, end: nat, block: nat)
    requires |t| == |offs| && block >= 1
    requires i > end || end + 1 < |offs|
    ensures RangeRebased(RebaseRangeAsWritten(t, offs, i, end, block), offs, i, end, block)
    decreases end + 1 - i
  {
    if i <= end {
      var next := Min(i + block, end + 1);
      var t1 := WriteBatch(t, offs, i, next);
      var res := RebaseRangeAsWritten(t1, offs, i + block, end, block);
      assert RebaseRangeAsWritten(t, offs, i, end, block) == res;
      RebaseRangeRebased(t1, offs, i + block, end, block);
      forall row | i <= row < next
        ensures res[row] == t1[row]
      {
        RebaseRangeFrame(t1, offs, i + block, end, block, row);
      }
      assert res[i..next] == t1[i..next];
    }
  }

  /** Whether a range's batches are served by t depends only on t's entries for the range's rows. */
  lemma {:induction false} RangeRebasedFrame(t: seq<int>, u: seq<int>, offs: seq<int>, i: nat, end: nat, block: nat)
    requires |t| == |offs| && |u| == |offs| && block >= 1
    requires i > end || end + 1 < |offs|
    requires forall row :: i <= row <= end ==> t[row] == u[row]
    requires RangeRebased(t, offs, i, end, block)
    ensures RangeRebased(u, offs, i, end, block)
    decreases end + 1 - i
  {
    if i <= end {
      var next := Min(i + block, end + 1);
      assert u[i..next] == t[i..next];
      RangeRebasedFrame(t, u, offs, i + block, end, block);
    }
  }

  /** The loop of lines 164-181 applied to t, one range after another. */
  function SharedTable(t: seq<int>, offs: seq<int>, plan: seq<Range>, maxRows: nat): (t': seq<int>)
    requires |t| == |offs| && |offs| >= 1 && AllInBounds(plan, |offs| - 1)
    ensures |t'| == |t|
    decreases |plan|
  {
    if |plan| == 0 then t
    else
      assert AllInBounds(plan[1..], |offs| - 1) by {
        assert forall k :: 0 <= k < |plan| - 1 ==> plan[1..][k] == plan[k + 1];
      }
      SharedTable(RebaseRangeAsWritten(t, offs, plan[0].start, plan[0].end, Stride(maxRows, plan[0])),
                  offs, plan[1..], maxRows)
  }

  /** offsets64 (or offsets64_vals) when the loop of lines 164-181 has finished. */
  function Offsets64(offs: seq<int>, plan: seq<Range>, maxRows: nat): (t: seq<int>)
    requires |offs| >= 1 && AllInBounds(plan, |offs| - 1)
    ensures |t| == |offs|
  {
    SharedTable(Zeros(|offs|), offs, plan, maxRows)
  }

  predicate Covers(plan: seq<Range>, row: nat) {
    exists k :: 0 <= k < |plan| && Contains(plan[k], row)
  }

  /** Rows no range of the plan selects keep their entry. */
  lemma {:induction false} SharedTableFrame(t: seq<int>, offs: seq<int>, plan: seq<Range>, maxRows: nat, row: nat)
    requires |t| == |offs| && |offs| >= 1 && AllInBounds(plan, |offs| - 1)
    requires row < |t| && !Covers(plan, row)
    ensures SharedTable(t, offs, plan, maxRows)[row] == t[row]
    decreases |plan|
  {
    if |plan| > 0 {
      var r := plan[0];
      assert !Contains(r, row);
      var t1 := RebaseRangeAsWritten(t, offs, r.start, r.end, Stride(maxRows, r));
      RebaseRangeFrame(t, offs, r.start, r.end, Stride(maxRows, r), row);
      forall k | 0 <= k < |plan| - 1
        ensures !Contains(plan[1..][k], row)
      {
        assert plan[1..][k] == plan[k + 1];
      }
      SharedTableFrame(t1, offs, plan[1..], maxRows, row);
    }
  }

  /** Two ranges share no row. */
  predicate Disjoint(a: Range, b: Range) {
    a.end < a.start || b.end < b.start || a.end < b.start || b.end < a.start
  }

  predicate PairwiseDisjoint(plan: seq<Range>) {
    forall k, l :: 0 <= k < l < |plan| ==> Disjoint(plan[k], plan[l])
  }

  predicate PlanRebased(t: seq<int>, offs: seq<int>, plan: seq<Range>, maxRows: nat)
    requires |t| == |offs| && |offs| >= 1 && AllInBounds(plan, |offs| - 1)
  {
    forall k :: 0 <= k < |plan| ==> RangeRebased(t, offs, plan[k].start, plan[k].end, Stride(maxRows, plan[k]))
  }

  /** When no two ranges overlap, the finished table serves every batch of every range. */
  lemma {:induction false} SharedTableRebased(t: seq<int>, offs: seq<int>, plan: seq<Range>, maxRows: nat)
    requires |t| == |offs| && |offs| >= 1 && AllInBounds(plan, |offs| - 1)
    requires PairwiseDisjoint(plan)
    ensures PlanRebased(SharedTable(t, offs, plan, maxRows), offs, plan, maxRows)
    decreases |plan|
  {
    if |plan| > 0 {
      var r := plan[0];
      var block := Stride(maxRows, r);
      var t1 := RebaseRangeAsWritten(t, offs, r.start, r.end, block);
      var tail := plan[1..];
      assert AllInBounds(tail, |offs| - 1) by {
        assert forall k :: 0 <= k < |tail| ==> tail[k] == plan[k + 1];
      }
      var res := SharedTable(t1, offs, tail, maxRows);
      assert SharedTable(t, offs, plan, maxRows) == res;
      assert PairwiseDisjoint(tail) by {
        forall k, l | 0 <= k < l < |tail|
          ensures Disjoint(tail[k], tail[l])
        {
          assert tail[k] == plan[k + 1] && tail[l] == plan[l + 1];
        }
      }
      SharedTableRebased(t1, offs, tail, maxRows);
      RebaseRangeRebased(t, offs, r.start, r.end, block);
      forall row | r.start <= row <= r.end
        ensures t1[row] == res[row]
      {
        forall k | 0 <= k < |tail|
          ensures !Contains(tail[k], row)
        {
          assert tail[k] == plan[k + 1];
          assert Disjoint(plan[0], plan[k + 1]);
        }
        SharedTableFrame(t1, offs, tail, maxRows, row);
      }
      RangeRebasedFrame(t1, res, offs, r.start, r.end, block);
      forall k | 0 <= k < |plan|
        ensures RangeRebased(res, offs, plan[k].start, plan[k].end, Stride(maxRows, plan[k]))
      {
        if k > 0 {
          assert plan[k] == tail[k - 1];
        }
      }
    }
  }

  // ----- The calls made with the shared tables -----

  /** The calls of lines 231-244 as written: every batch hands over slices of the finished offsets64 tables. */
  function PlanTraceAsWritten(idx: Index, plan: seq<Range>, maxRows: nat): (log: seq<Submission>)
    requires idx.Shaped() && AllInBounds(plan, idx.Count())
    ensures RowsSubmitted(log) == PlanRows(plan)
  {
    PlanTraceRows(idx, Shared(Offsets64(idx.offsets, plan, maxRows), Offsets64(idx.valOffsets, plan, maxRows)), plan, maxRows);
    PlanTrace(idx, Shared(Offsets64(idx.offsets, plan, maxRows), Offsets64(idx.valOffsets, plan, maxRows)), plan, maxRows)
  }

  lemma BatchShared(idx: Index, keys64: seq<int>, vals64: seq<int>, b: Batch)
    requires idx.Shaped() && |keys64| == |idx.offsets| && |vals64| == |idx.offsets|
    requires b.lo <= b.hi <= idx.Count()
    requires keys64[b.lo..b.hi] == Rebase(idx.offsets, b.lo, b.hi)
    requires vals64[b.lo..b.hi] == Rebase(idx.valOffsets, b.lo, b.hi)
    ensures SubmitBatch(idx, Shared(keys64, vals64), b) == SubmitBatch(idx, PerBatch, b)
  {
  }

  /** A range served by the shared tables produces the same calls as with per-batch tables. */
  lemma {:induction false} TraceFromShared(idx: Index, keys64: seq<int>, vals64: seq<int>, i: nat, end: nat, block: nat)
    requires idx.Shaped() && |keys64| == |idx.offsets| && |vals64| == |idx.offsets| && block >= 1
    requires i > end || end < idx.Count()
    requires RangeRebased(keys64, idx.offsets, i, end, block)
    requires RangeRebased(vals64, idx.valOffsets, i, end, block)
    ensures TraceFrom(idx, Shared(keys64, vals64), i, end, block) == TraceFrom(idx, PerBatch, i, end, block)
    decreases end + 1 - i
  {
    if i <= end {
      var b := Batch(i, Min(i + block, end + 1));
      var shared := Shared(keys64, vals64);
      TraceFromShared(idx, keys64, vals64, i + block, end, block);
      BatchShared(idx, keys64, vals64, b);
      TraceFromUnfold(idx, shared, i, end, block);
      TraceFromUnfold(idx, PerBatch, i, end, block);
      SameHead(TraceFrom(idx, shared, i, end, block), TraceFrom(idx, PerBatch, i, end, block),
               SubmitBatch(idx, PerBatch, b),
               TraceFrom(idx, shared, i + block, end, block), TraceFrom(idx, PerBatch, i + block, end, block));
    }
  }

  lemma {:induction false} PlanTraceShared(idx: Index, keys64: seq<int>, vals64: seq<int>, plan: seq<Range>, maxRows: nat)
    requires idx.Shaped() && |keys64| == |idx.offsets| && |vals64| == |idx.offsets|
    requires AllInBounds(plan, idx.Count())
    requires PlanRebased(keys64, idx.offsets, plan, maxRows)
    requires PlanRebased(vals64, idx.valOffsets, plan, maxRows)
    ensures PlanTrace(idx, Shared(keys64, vals64), plan, maxRows) == PlanTrace(idx, PerBatch, plan, maxRows)
    decreases |plan|
  {
    if |plan| > 0 {
      var init := plan[..|plan| - 1];
      var r := plan[|plan| - 1];
      var shared := Shared(keys64, vals64);
      assert forall k :: 0 <= k < |init| ==> init[k] == plan[k];
      PlanTraceShared(idx, keys64, vals64, init, maxRows);
      TraceFromShared(idx, keys64, vals64, r.start, r.end, Stride(maxRows, r));
      ConcatEq(PlanTrace(idx, shared, plan, maxRows), PlanTrace(idx, PerBatch, plan, maxRows),
               PlanTrace(idx, shared, init, maxRows), RangeTrace(idx, shared, r, maxRows),
               PlanTrace(idx, PerBatch, init, maxRows), RangeTrace(idx, PerBatch, r, maxRows));
    }
  }

  /**
   With ranges that share no row, the calls as written are exactly the calls
   with per-batch tables: the shared offsets64 tables do no harm.
   */
  lemma DisjointPlanAgrees(idx: Index, plan: seq<Range>, maxRows: nat)
    requires idx.Shaped() && AllInBounds(plan, idx.Count())
    requires PairwiseDisjoint(plan)
    ensures PlanTraceAsWritten(idx, plan, maxRows) == PlanTrace(idx, PerBatch, plan, maxRows)
  {
    var keys64 := Offsets64(idx.offsets, plan, maxRows);
    var vals64 := Offsets64(idx.valOffsets, plan, maxRows);
    SharedTableRebased(Zeros(|idx.offsets|), idx.offsets, plan, maxRows);
    SharedTableRebased(Zeros(|idx.valOffsets|), idx.valOffsets, plan, maxRows);
    PlanTraceShared(idx, keys64, vals64, plan, maxRows);
  }

  // ----- Overlapping ranges -----

  lemma PlanTraceTwo(idx: Index, tables: Tables, r0: Range, r1: Range, maxRows: nat)
    requires idx.Shaped() && TablesFit(idx, tables)
    requires InBounds(r0, idx.Count()) && InBounds(r1, idx.Count())
    ensures AllInBounds([r0, r1], idx.Count())
    ensures PlanTrace(idx, tables, [r0, r1], maxRows) == RangeTrace(idx, tables, r0, maxRows) + RangeTrace(idx, tables, r1, maxRows)
  {
    var plan := [r0, r1];
    assert plan[..1] == [r0];
    assert [r0][..0] == [];
    ConcatEq(PlanTrace(idx, tables, [r0], maxRows), RangeTrace(idx, tables, r0, maxRows),
             PlanTrace(idx, tables, [], maxRows), RangeTrace(idx, tables, r0, maxRows),
             [], RangeTrace(idx, tables, r0, maxRows));
  }

  // Reads the second element through two named concatenations, without unfolding the traces.
  lemma SecondOf<T>(w: seq<T>, a: seq<T>, b: seq<T>, x0: T, rest0: seq<T>, x1: T, rest1: seq<T>)
    requires w == a + b && a == [x0] + rest0 && rest0 == [x1] + rest1
    ensures |w| > 1 && w[1] == x1
  {
  }

  /** The second call of a plan whose first range has at least two rows is the call for the batch at row 1. */
  lemma SecondCall(idx: Index, tables: Tables, r0: Range, r1: Range, maxRows: nat)
    requires idx.Shaped() && TablesFit(idx, tables)
    requires InBounds(r0, idx.Count()) && InBounds(r1, idx.Count())
    requires r0.start == 0 && r0.end >= 1 && Stride(maxRows, r0) == 1
    ensures AllInBounds([r0, r1], idx.Count())
    ensures var log := PlanTrace(idx, tables, [r0, r1], maxRows);
            |log| > 1 && log[1] == SubmitBatch(idx, tables, Batch(1, 2))
  {
    PlanTraceTwo(idx, tables, r0, r1, maxRows);
    TraceFromUnfold(idx, tables, 0, r0.end, 1);
    TraceFromUnfold(idx, tables, 1, r0.end, 1);
    SecondOf(PlanTrace(idx, tables, [r0, r1], maxRows),
             RangeTrace(idx, tables, r0, maxRows), RangeTrace(idx, tables, r1, maxRows),
             SubmitBatch(idx, tables, Batch(0, 1)), TraceFrom(idx, tables, 1, r0.end, 1),
             SubmitBatch(idx, tables, Batch(1, 2)), TraceFrom(idx, tables, 2, r0.end, 1));
  }

  /** The overlap plan's strides: one-row batches for [0, 7] and two-row batches for [0, 15]. */
  lemma OverlapStrides(plan: seq<Range>, maxRows: nat)
    requires plan == [Range(0, 7), Range(0, 15)] && maxRows == 16
    ensures StrideAsWritten(maxRows, plan[0]) == 1 && StrideAsWritten(maxRows, plan[1]) == 2
    ensures Stride(maxRows, plan[0]) == 1 && Stride(maxRows, plan[1]) == 2
  {
    assert Wrap64(8) == 8 && Wrap64(16) == 16;
  }

  /** As written, the second call of the overlap plan hands over row 1 re-based against row 0. */
  lemma OverlapWritten(idx: Index, plan: seq<Range>, maxRows: nat)
    requires idx.Valid() && idx.Count() >= 16
    requires plan == [Range(0, 7), Range(0, 15)] && maxRows == 16
    ensures AllInBounds(plan, idx.Count())
    ensures |PlanTraceAsWritten(idx, plan, maxRows)| > 1
    ensures PlanTraceAsWritten(idx, plan, maxRows)[1].startRow == 1
    ensures PlanTraceAsWritten(idx, plan, maxRows)[1].keyOffsets == [idx.offsets[1] - idx.offsets[0]]
  {
    var r0, r1 := Range(0, 7), Range(0, 15);
    OverlapStrides(plan, maxRows);
    var keys64 := Offsets64(idx.offsets, plan, maxRows);
    var vals64 := Offsets64(idx.valOffsets, plan, maxRows);
    var t1 := RebaseRangeAsWritten(Zeros(|idx.offsets|), idx.offsets, 0, 7, 1);
    var t2 := RebaseRangeAsWritten(t1, idx.offsets, 0, 15, 2);
    assert plan[1..] == [r1] && [r1][1..] == [];
    assert keys64 == SharedTable(t1, idx.offsets, [r1], maxRows);
    assert keys64 == t2;
    RebaseRangeRebased(t1, idx.offsets, 0, 15, 2);
    assert t2[0..2] == Rebase(idx.offsets, 0, 2);
    RebaseAt(idx.offsets, 0, 2);
    assert t2[1..2] == [idx.offsets[1] - idx.offsets[0]];
    var shared := Shared(keys64, vals64);
    SecondCall(idx, shared, r0, r1, maxRows);
    var written := PlanTraceAsWritten(idx, plan, maxRows);
    assert written == PlanTrace(idx, shared, plan, maxRows);
    assert written[1].keyOffsets == keys64[1..2];
  }

  /** With per-batch tables, the second call of the overlap plan hands over [0]. */
  lemma OverlapPerBatch(idx: Index, plan: seq<Range>, maxRows: nat)
    requires idx.Valid() && idx.Count() >= 16
    requires plan == [Range(0, 7), Range(0, 15)] && maxRows == 16
    ensures AllInBounds(plan, idx.Count())
    ensures |PlanTrace(idx, PerBatch, plan, maxRows)| > 1
    ensures PlanTrace(idx, PerBatch, plan, maxRows)[1].startRow == 1
    ensures PlanTrace(idx, PerBatch, plan, maxRows)[1].keyOffsets == [0]
  {
    OverlapStrides(plan, maxRows);
    assert Rebase(idx.offsets, 1, 2) == [0];
    SecondCall(idx, PerBatch, Range(0, 7), Range(0, 15), maxRows);
  }

  /**
   Ranges [0, 7] and [0, 15] with a budget of 16 rows: the first is cut into
   one-row batches, the second into two-row batches, and the second range's
   re-basing of row 1 (relative to row 0) is what the first range's batch
   [1, 2) then hands over, instead of the 0 its own table starts with.
   */
  lemma OverlapClobbersRebase(idx: Index, plan: seq<Range>, maxRows: nat)
    requires idx.Valid() && idx.Count() >= 16
    requires plan == [Range(0, 7), Range(0, 15)] && maxRows == 16
    ensures AllInBounds(plan, idx.Count())
    ensures StrideAsWritten(maxRows, plan[0]) == 1 && StrideAsWritten(maxRows, plan[1]) == 2
    ensures |PlanTraceAsWritten(idx, plan, maxRows)| > 1 && |PlanTrace(idx, PerBatch, plan, maxRows)| > 1
    ensures PlanTraceAsWritten(idx, plan, maxRows)[1].startRow == 1
    ensures PlanTrace(idx, PerBatch, plan, maxRows)[1].startRow == 1
    ensures PlanTraceAsWritten(idx, plan, maxRows)[1].keyOffsets == [idx.offsets[1] - idx.offsets[0]]
    ensures PlanTrace(idx, PerBatch, plan, maxRows)[1].keyOffsets == [0]
    ensures PlanTraceAsWritten(idx, plan, maxRows)[1].keyOffsets != PlanTrace(idx, PerBatch, plan, maxRows)[1].keyOffsets
  {
    OverlapStrides(plan, maxRows);
    OverlapWritten(idx, plan, maxRows);
    OverlapPerBatch(idx, plan, maxRows);
    assert idx.offsets[0] < idx.offsets[1];
  }
}

=== FILE: submissions.dfy ===
/**
 Batch submission: every batch of every sampling range becomes one queueData
 call carrying the batch's row count, the byte spans of its keys and values,
 and offset tables re-based to its first row. The aggregation engine is an
 append-only log of these calls.
 */
module Submissions {
  import opened Records
  import opened Sampling
  import opened Batching

  /** The arguments of one queueData call (lines 239-242). */
  datatype Submission = Submission(
    startRow: nat, rowCount: nat,
    keyBase: int, keyBytes: int, keyOffsets: seq<int>,
    valBase: int, valBytes: int, valOffsets: seq<int>)

  /** Where the re-based offsets handed over with a batch come from. */
  datatype Tables =
    | PerBatch                                      // re-based afresh for each batch
    | Shared(keys64: seq<int>, vals64: seq<int>)    // slices of the row-indexed offsets64 tables

  predicate TablesFit(idx: Index, tables: Tables) {
    tables.Shared? ==> |tables.keys64| == |idx.offsets| && |tables.vals64| == |idx.offsets|
  }

  /** The queueData call for batch b: rows [lo, hi), bytes offsets[lo]..offsets[hi] of each block. */
  function SubmitBatch(idx: Index, tables: Tables, b: Batch): (s: Submission)
    requires idx.Shaped() && TablesFit(idx, tables) && b.lo <= b.hi <= idx.Count()
    ensures s.startRow == b.lo && s.startRow + s.rowCount == b.hi
    ensures |s.keyOffsets| == s.rowCount && |s.valOffsets| == s.rowCount
  {
    var keyTable := if tables.PerBatch? then Rebase(idx.offsets, b.lo, b.hi) else tables.keys64[b.lo..b.hi];
    var valTable := if tables.PerBatch? then Rebase(idx.valOffsets, b.lo, b.hi) else tables.vals64[b.lo..b.hi];
    Submission(b.lo, b.hi - b.lo,
               idx.offsets[b.lo], idx.offsets[b.hi] as int - idx.offsets[b.lo], keyTable,
               idx.valOffsets[b.lo], idx.valOffsets[b.hi] as int - idx.valOffsets[b.lo], valTable)
  }

  predicate WithinIndex(bs: seq<Batch>, n: nat) {
    forall k :: 0 <= k < |bs| ==> bs[k].lo <= bs[k].hi <= n
  }

  /** The calls for a sequence of batches, in order: one per batch. */
  function Trace(idx: Index, tables: Tables, bs: seq<Batch>): (log: seq<Submission>)
    requires idx.Shaped() && TablesFit(idx, tables) && WithinIndex(bs, idx.Count())
  {
    seq(|bs|, k requires 0 <= k < |bs| => SubmitBatch(idx, tables, bs[k]))
  }

  /** The calls the stride loop of lines 236-243 makes from row i on. */
  function TraceFrom(idx: Index, tables: Tables, i: nat, end: nat, block: nat): seq<Submission>
    requires idx.Shaped() && TablesFit(idx, tables) && block >= 1
    requires i > end || end < idx.Count()
  {
    Trace(idx, tables, Batches(i, end, block))
  }

  /** The calls made for one sampling range. */
  function RangeTrace(idx: Index, tables: Tables, r: Range, maxRows: nat): seq<Submission>
    requires idx.Shaped() && TablesFit(idx, tables) && InBounds(r, idx.Count())
  {
    TraceFrom(idx, tables, r.start, r.end, Stride(maxRows, r))
  }

  /** The calls made for a whole plan, range by range (lines 231-244). */
  function PlanTrace(idx: Index, tables: Tables, plan: seq<Range>, maxRows: nat): (log: seq<Submission>)
    requires idx.Shaped() && TablesFit(idx, tables) && AllInBounds(plan, idx.Count())
    ensures forall k :: 0 <= k < |log| ==> log[k].startRow + log[k].rowCount <= idx.Count()
  {
    if |plan| == 0 then []
    else PlanTrace(idx, tables, plan[..|plan| - 1], maxRows) + RangeTrace(idx, tables, plan[|plan| - 1], maxRows)
  }

  lemma TraceCons(idx: Index, tables: Tables, b: Batch, rest: seq<Batch>)
    requires idx.Shaped() && TablesFit(idx, tables)
    requires b.lo <= b.hi <= idx.Count() && WithinIndex(rest, idx.Count())
    ensures WithinIndex([b] + rest, idx.Count())
    ensures Trace(idx, tables, [b] + rest) == [SubmitBatch(idx, tables, b)] + Trace(idx, tables, rest)
  {
    var bs := [b] + rest;
    assert WithinIndex(bs, idx.Count()) by {
      forall k | 0 <= k < |bs|
        ensures bs[k].lo <= bs[k].hi <= idx.Count()
      {
        if k > 0 {
          assert bs[k] == rest[k - 1];
        }
      }
    }
    var lhs := Trace(idx, tables, bs);
    var rhs := [SubmitBatch(idx, tables, b)] + Trace(idx, tables, rest);
    forall k | 0 <= k < |lhs|
      ensures lhs[k] == rhs[k]
    {
      if k > 0 {
        assert bs[k] == rest[k - 1];
      }
    }
    assert lhs == rhs;
  }

  /** The loop's calls from row i: the call for the batch at i, then the calls from i + block. */
  lemma TraceFromUnfold(idx: Index, tables: Tables, i: nat, end: nat, block: nat)
    requires idx.Shaped() && TablesFit(idx, tables) && block >= 1
    requires i <= end < idx.Count()
    ensures TraceFrom(idx, tables, i, end, block)
         == [SubmitBatch(idx, tables, Batch(i, Min(i + block, end + 1)))] + TraceFrom(idx, tables, i + block, end, block)
  {
    BatchesUnfold(i, end, block);
    TraceCons(idx, tables, Batch(i, Min(i + block, end + 1)), Batches(i + block, end, block));
  }

  // ConcatEq and SameHead state sequence equalities between named terms, so that callers
  // relate two recursive traces without the solver unfolding either of them.
  lemma ConcatEq<T>(lhs: seq<T>, rhs: seq<T>, a: seq<T>, b: seq<T>, c: seq<T>, d: seq<T>)
    requires lhs == a + b && rhs == c + d && a == c && b == d
    ensures lhs == rhs
  {
  }

  lemma SameHead<T>(lhs: seq<T>, rhs: seq<T>, x: T, a: seq<T>, b: seq<T>)
    requires lhs == [x] + a
    requires rhs == [x] + b
    requires a == b
    ensures lhs == rhs
  {
  }

  /**
   The re-basing loop of lines 175-179, writing a fresh table for the batch:
   adding the batch's first offset back gives each row's offset in the block.
   */
  method RebaseBatch(offs: seq<int>, lo: nat, hi: nat) returns (t: seq<int>)
    requires lo <= hi < |offs|
    ensures |t| == hi - lo
    ensures forall k :: 0 <= k < |t| ==> offs[lo] + t[k] == offs[lo + k]
    ensures t == Rebase(offs, lo, hi)
  {
    t := [];
    var ii := lo;
    while ii < hi
      invariant lo <= ii <= hi
      invariant t == Rebase(offs, lo, ii)
    {
      t := t + [offs[ii] - offs[lo]];
      ii := ii + 1;
    }
    RebaseAt(offs, lo, hi);
  }

  /** One queueData call of lines 239-242, with both tables re-based by the loop of lines 175-179. */
  method BatchCall(idx: Index, lo: nat, hi: nat) returns (call: Submission)
    requires idx.Shaped() && lo <= hi <= idx.Count()
    ensures call == SubmitBatch(idx, PerBatch, Batch(lo, hi))
  {
    var keyTable := RebaseBatch(idx.offsets, lo, hi);
    var valTable := RebaseBatch(idx.valOffsets, lo, hi);
    call := Submission(lo, hi - lo,
                       idx.offsets[lo], idx.offsets[hi] as int - idx.offsets[lo], keyTable,
                       idx.valOffsets[lo], idx.valOffsets[hi] as int - idx.valOffsets[lo], valTable);
  }

  /**
   The stride loop of lines 236-243 for one range, each batch re-based as it
   is submitted: the log grows by exactly the range's calls.
   */
  method SubmitRange(idx: Index, r: Range, maxRows: nat, log: seq<Submission>) returns (log': seq<Submission>)
    requires idx.Shaped() && InBounds(r, idx.Count())
    ensures log' == log + RangeTrace(idx, PerBatch, r, maxRows)
  {
    var block := Stride(maxRows, r);
    ghost var target := log + RangeTrace(idx, PerBatch, r, maxRows);
    log' := log;
    var i := r.start;
    while i <= r.end
      invariant log' + TraceFrom(idx, PerBatch, i, r.end, block) == target
      decreases r.end + 1 - i
    {
      log' := SubmitNext(idx, i, r.end, block, log', target);
      i := i + block;
    }
    TraceFromPast(idx, PerBatch, i, r.end, block, log', target);
  }

  /** One pass of the loop body of lines 238-242: queue the batch at row i. */
  method SubmitNext(idx: Index, i: nat, end: nat, block: nat, done: seq<Submission>, ghost target: seq<Submission>)
    returns (done': seq<Submission>)
    requires idx.Shaped() && block >= 1 && i <= end < idx.Count()
    requires done + TraceFrom(idx, PerBatch, i, end, block) == target
    ensures done' + TraceFrom(idx, PerBatch, i + block, end, block) == target
  {
    var call := BatchCall(idx, i, Min(i + block, end + 1));
    LogStep(idx, i, end, block, done, target, call);
    done' := done + [call];
  }

  /** Once row i is past the range's end, no calls remain. */
  lemma TraceFromPast(idx: Index, tables: Tables, i: nat, end: nat, block: nat, done: seq<Submission>, target: seq<Submission>)
    requires idx.Shaped() && TablesFit(idx, tables) && block >= 1 && i > end
    requires done + TraceFrom(idx, tables, i, end, block) == target
    ensures done == target
  {
    assert Batches(i, end, block) == [];
    assert done + [] == done;
  }

  /** Appending the call for the batch at row i moves it from the calls still to make to the log. */
  lemma LogStep(idx: Index, i: nat, end: nat, block: nat, done: seq<Submission>, target: seq<Submission>, call: Submission)
    requires idx.Shaped() && block >= 1 && i <= end < idx.Count()
    requires done + TraceFrom(idx, PerBatch, i, end, block) == target
    requires call == SubmitBatch(idx, PerBatch, Batch(i, Min(i + block, end + 1)))
    ensures (done + [call]) + TraceFrom(idx, PerBatch, i + block, end, block) == target
  {
    var rest := TraceFrom(idx, PerBatch, i + block, end, block);
    TraceFromUnfold(idx, PerBatch, i, end, block);
    assert done + ([call] + rest) == (done + [call]) + rest;
  }

  /** The outer loop of lines 231-244: every range of the plan, in order. */
  method SubmitPlan(idx: Index, plan: seq<Range>, maxRows: nat) returns (log: seq<Submission>)
    requires idx.Shaped() && AllInBounds(plan, idx.Count())
    ensures log == PlanTrace(idx, PerBatch, plan, maxRows)
  {
    log := [];
    var k := 0;
    while k < |plan|
      invariant k <= |plan|
      invariant log == PlanTrace(idx, PerBatch, plan[..k], maxRows)
    {
      assert plan[..k + 1][..k] == plan[..k];
      log := SubmitRange(idx, plan[k], maxRows, log);
      k := k + 1;
    }
    assert plan[..|plan|] == plan;
  }

  // ----- What the log says about rows -----

  /** The rows the log submits, call by call. */
  function RowsSubmitted(log: seq<Submission>): seq<nat> {
    if |log| == 0 then [] else Interval(log[0].startRow, log[0].startRow + log[0].rowCount) + RowsSubmitted(log[1..])
  }

  lemma {:induction false} RowsSubmittedConcat(a: seq<Submission>, b: seq<Submission>)
    ensures RowsSubmitted(a + b) == RowsSubmitted(a) + RowsSubmitted(b)
    decreases |a|
  {
    if |a| == 0 {
      assert a + b == b;
    } else {
      assert (a + b)[0] == a[0];
      assert (a + b)[1..] == a[1..] + b;
      RowsSubmittedConcat(a[1..], b);
    }
  }

  lemma {:induction false} TraceRows(idx: Index, tables: Tables, bs: seq<Batch>)
    requires idx.Shaped() && TablesFit(idx, tables) && WithinIndex(bs, idx.Count())
    ensures RowsSubmitted(Trace(idx, tables, bs)) == RowsOf(bs)
    decreases |bs|
  {
    if |bs| > 0 {
      var log := Trace(idx, tables, bs);
      assert log[1..] == Trace(idx, tables, bs[1..]);
      TraceRows(idx, tables, bs[1..]);
    }
  }

  /** One range's calls submit the rows start..end, in order, each exactly once. */
  lemma RangeTraceRows(idx: Index, tables: Tables, r: Range, maxRows: nat)
    requires idx.Shaped() && TablesFit(idx, tables) && InBounds(r, idx.Count())
    ensures RowsSubmitted(RangeTrace(idx, tables, r, maxRows)) == RangeRows(r)
  {
    TraceRows(idx, tables, RangeBatches(r, maxRows));
    BatchesFlatten(r.start, r.end, Stride(maxRows, r));
  }

  /** A plan's calls submit the plan's rows, range by range. */
  lemma {:induction false} PlanTraceRows(idx: Index, tables: Tables, plan: seq<Range>, maxRows: nat)
    requires idx.Shaped() && TablesFit(idx, tables) && AllInBounds(plan, idx.Count())
    ensures RowsSubmitted(PlanTrace(idx, tables, plan, maxRows)) == PlanRows(plan)
    decreases |plan|
  {
    if |plan| > 0 {
      var init := plan[..|plan| - 1];
      PlanTraceRows(idx, tables, init, maxRows);
      RangeTraceRows(idx, tables, plan[|plan| - 1], maxRows);
      RowsSubmittedConcat(PlanTrace(idx, tables, init, maxRows), RangeTrace(idx, tables, plan[|plan| - 1], maxRows));
    }
  }

  /** The rows submitted for a range do not depend on the row budget, only their grouping does. */
  lemma BatchSizeIrrelevant(idx: Index, r: Range, maxRows1: nat, maxRows2: nat)
    requires idx.Shaped() && InBounds(r, idx.Count())
    ensures RowsSubmitted(RangeTrace(idx, PerBatch, r, maxRows1))
         == RowsSubmitted(RangeTrace(idx, PerBatch, r, maxRows2))
  {
    RangeTraceRows(idx, PerBatch, r, maxRows1);
    RangeTraceRows(idx, PerBatch, r, maxRows2);
  }

  // ----- What the log says about bytes -----

  /**
   One range's calls tile the range's byte span in each block: the first
   starts at the range's first record, each starts where the one before it
   ends, and the last ends where the range's last record ends.
   */
  lemma RangeTraceSpans(idx: Index, tables: Tables, r: Range, maxRows: nat)
    requires idx.Shaped() && TablesFit(idx, tables) && InBounds(r, idx.Count())
    requires r.start <= r.end
    ensures var log := RangeTrace(idx, tables, r, maxRows);
            && |log| > 0
            && log[0].keyBase == idx.offsets[r.start] && log[0].valBase == idx.valOffsets[r.start]
            && log[|log| - 1].keyBase + log[|log| - 1].keyBytes == idx.offsets[r.end + 1]
            && log[|log| - 1].valBase + log[|log| - 1].valBytes == idx.valOffsets[r.end + 1]
            && (forall k :: 0 <= k < |log| - 1 ==>
                  && log[k].keyBase + log[k].keyBytes == log[k + 1].keyBase
                  && log[k].valBase + log[k].valBytes == log[k + 1].valBase)
  {
    BatchesShape(r.start, r.end, Stride(maxRows, r));
    var bs := RangeBatches(r, maxRows);
    SubmitBatchSpan(idx, tables, bs[0]);
    SubmitBatchSpan(idx, tables, bs[|bs| - 1]);
    TraceTiles(idx, tables, bs);
  }

  /** The calls for contiguous batches have contiguous byte spans. */
  lemma TraceTiles(idx: Index, tables: Tables, bs: seq<Batch>)
    requires idx.Shaped() && TablesFit(idx, tables) && WithinIndex(bs, idx.Count())
    requires Contiguous(bs)
    ensures var log := Trace(idx, tables, bs);
            forall k :: 0 <= k < |log| - 1 ==>
              && log[k].keyBase + log[k].keyBytes == log[k + 1].keyBase
              && log[k].valBase + log[k].valBytes == log[k + 1].valBase
  {
    var log := Trace(idx, tables, bs);
    forall k | 0 <= k < |log| - 1
      ensures log[k].keyBase + log[k].keyBytes == log[k + 1].keyBase
      ensures log[k].valBase + log[k].valBytes == log[k + 1].valBase
    {
      assert bs[k].hi == bs[k + 1].lo;
      SubmitBatchSpan(idx, tables, bs[k]);
      SubmitBatchSpan(idx, tables, bs[k + 1]);
    }
  }

  /** A call's byte spans run from its first row's offset to the offset after its last row. */
  lemma SubmitBatchSpan(idx: Index, tables: Tables, b: Batch)
    requires idx.Shaped() && TablesFit(idx, tables) && b.lo <= b.hi <= idx.Count()
    ensures var s := SubmitBatch(idx, tables, b);
            && s.keyBase == idx.offsets[b.lo] && s.keyBase + s.keyBytes == idx.offsets[b.hi]
            && s.valBase == idx.valOffsets[b.lo] && s.valBase + s.valBytes == idx.valOffsets[b.hi]
  {
  }

  // ----- What each call hands to the engine -----

  /**
   A call is self-consistent: its byte spans lie inside the blocks, and its
   re-based tables, closed with the span lengths, are the record tables of
   those spans, one entry per submitted row.
   */
  predicate Describes(keys: seq<char>, vals: seq<char>, s: Submission) {
    && |s.keyOffsets| == s.rowCount && |s.valOffsets| == s.rowCount
    && 0 <= s.keyBase && 0 <= s.keyBytes && 0 <= s.valBase && 0 <= s.valBytes
    && s.keyBase + s.keyBytes <= |keys| && s.valBase + s.valBytes <= |vals|
    && Delimits(keys[s.keyBase..s.keyBase + s.keyBytes], s.keyOffsets + [s.keyBytes])
    && Delimits(vals[s.valBase..s.valBase + s.valBytes], s.valOffsets + [s.valBytes])
  }

  predicate AllDescribe(keys: seq<char>, vals: seq<char>, log: seq<Submission>) {
    forall k :: 0 <= k < |log| ==> Describes(keys, vals, log[k])
  }

  lemma BatchDescribes(keys: seq<char>, vals: seq<char>, idx: Index, b: Batch)
    requires idx.Valid() && Delimits(keys, idx.offsets) && Delimits(vals, idx.valOffsets)
    requires b.lo <= b.hi <= idx.Count()
    ensures Describes(keys, vals, SubmitBatch(idx, PerBatch, b))
  {
    RebasedDelimitsSpan(keys, idx.offsets, b.lo, b.hi);
    RebasedDelimitsSpan(vals, idx.valOffsets, b.lo, b.hi);
  }

  lemma AllDescribeConcat(keys: seq<char>, vals: seq<char>, a: seq<Submission>, b: seq<Submission>)
    requires AllDescribe(keys, vals, a) && AllDescribe(keys, vals, b)
    ensures AllDescribe(keys, vals, a + b)
  {
    forall k | 0 <= k < |a + b|
      ensures Describes(keys, vals, (a + b)[k])
    {
      if k >= |a| {
        assert (a + b)[k] == b[k - |a|];
      }
    }
  }

  lemma TraceDescribes(keys: seq<char>, vals: seq<char>, idx: Index, bs: seq<Batch>)
    requires idx.Valid() && Delimits(keys, idx.offsets) && Delimits(vals, idx.valOffsets)
    requires WithinIndex(bs, idx.Count())
    ensures AllDescribe(keys, vals, Trace(idx, PerBatch, bs))
  {
    forall k | 0 <= k < |bs|
      ensures Describes(keys, vals, Trace(idx, PerBatch, bs)[k])
    {
      BatchDescribes(keys, vals, idx, bs[k]);
    }
  }

  /** Every call of a plan describes its spans correctly. */
  lemma {:induction false} PlanTraceDescribes(keys: seq<char>, vals: seq<char>, idx: Index, plan: seq<Range>, maxRows: nat)
    requires idx.Valid() && Delimits(keys, idx.offsets) && Delimits(vals, idx.valOffsets)
    requires AllInBounds(plan, idx.Count())
    ensures AllDescribe(keys, vals, PlanTrace(idx, PerBatch, plan, maxRows))
    decreases |plan|
  {
    if |plan| > 0 {
      var init := plan[..|plan| - 1];
      var r := plan[|plan| - 1];
      PlanTraceDescribes(keys, vals, idx, init, maxRows);
      TraceDescribes(keys, vals, idx, RangeBatches(r, maxRows));
      AllDescribeConcat(keys, vals, PlanTrace(idx, PerBatch, init, maxRows), RangeTrace(idx, PerBatch, r, maxRows));
    }
  }
}
